=== FILE: README.md ===
# Kodi repository generator: a Dafny model of its string and list core

`generator.py` builds a Kodi add-on repository. From the `addon.xml` of each add-on
folder it produces the combined `addons.xml`, optionally followed by the manifests of
the previous versions kept as zip archives. It packs each add-on into
`zip/<folder>/<folder>-<version>.zip` and lists directories in HTML index pages.

This project models the decisions that code makes on strings and lists. Everything
the program reads from disk reaches the model as data:

- the text of each manifest, or its absence;
- directory listings and a set of existing paths;
- the entries of each archive.

The modules follow the program's pieces:

| module | models |
|---|---|
| `Text` | the `str` built-ins used: `rstrip`, `strip`, `split`, `splitlines`, `find`/`in`, `startswith`, slicing `[0:-k]` |
| `Seqs` | filtering, concatenation and flat-mapping of sequences |
| `Naming` | `generate_zip_filename`, `os.path.join`/`basename`, `get_addons_main_path`, the safe-exclusion list |
| `Versions` | `_file_compare_version` |
| `VersionScan` | `re.findall(r'version=\"(.*?[0-9])\"', xml)[1]`, spelled out as a scanner |
| `History` | `get_previous_addon_xml_ver` |
| `ManifestFormat` | `_format_xml_lines` |
| `Document` | `generate_addons_file` |
| `Listings` | `sorted(os.listdir(...))`, `get_addons_folders`, `get_dir_items`, the link rule of the index template |
| `Packaging` | the per-add-on exclusion lookup, the file walk of `generate_zip_files` and the entry names it writes |

## Where the code and its own comments differ

The model follows the code in each case.

- **Which `-` the version follows.** The comment at generator.py:199 gives the accepted name format as `some_name-0.15.11.zip`, with one `-` before the version. The code takes `split('-')[1]`, the piece after the first `-`. For a folder `<f1>-<f2>` the comparator therefore reads `f2` without its last four characters, not the version (`Versions.DashedFolderMisreadsVersion`). When a `.`-separated piece of that text is not something `int()` accepts, `int()` raises: `my-addon` reads `a` (`Versions.MisreadExample`). When every piece is a digit run, nothing raises, but every archive of the add-on reads the same version. A folder `repo-12345`, for example, reads `1`, and `x-1.23456` reads `1.2`. Each archive then answers 1 against every other, whatever its real version (`Versions.DashedFolderArchivesTie`).
- **What a late failure keeps.** The handler at generator.py:116-120 is commented `# missing or poorly formatted addon.xml`. It also catches what fails after the current block is appended at generator.py:102: fewer than two `version="…"` matches, a missing archive folder, an unreadable archive. Such a failure keeps the current block and drops only the history (`Document.AddonBlocks`, `Document.SingleVersionAttributeKeepsCurrentOnly`).
- **Whether the safe exclusion fires.** The list at generator.py:84 is named `safe_excluded_folders`, and the test at generator.py:91-93 is commented `# Skip the safe excluded folders`. The test compares these bare names with the full paths `get_addons_folders` returns. So for a non-empty add-ons root it never skips anything (`Naming.SafeExclusionNeverMatches`, `Document.ListedAddonsInFolderOrder`).

## Model

| member | source | states |
|---|---|---|
| Naming.ZipFileName | generator.py:63-65 | the archive name starts with `<folder>-`, ends in `.zip`, and holds exactly the version between them |
| Versions.ZipNameVersionRoundTrip | generator.py:198-202 | reading the version back out of a generated archive name gives the version that went in, when neither part contains `-` |
| Versions.DashedFolderMisreadsVersion | generator.py:201 | for an archive of a folder `<f1>-<f2>` (no further `-`), the comparator reads `f2` without its last four characters as the version, whatever version went into the name |
| Versions.DashedFolderArchivesTie | generator.py:198-206 | when that misread text is a `.`-separated list of digit runs, any two archives of the add-on read the same version and answer 1 against each other in both orders, whatever their real versions |
| Versions.SameReadingTies | generator.py:200-206 | two dashed names from which the comparator reads the same numeric version answer 1 in both orders |
| Versions.MisreadExample | generator.py:201 | for folder `my-addon` and version `1.0`, the comparator reads `a` as the version, which is not numeric, so `int()` would reject it |
| Naming.PathJoin | generator.py:49 | an empty root gives the item itself; a root ending in the separator is followed directly by the item; any other non-empty root is followed by one separator and then the item |
| Naming.SplitLastPiece | generator.py:95 | the last piece of a split is the text after the last separator |
| Naming.BasenameOfJoin | generator.py:95 | the basename of `join(main, item)` is the item, when the item has no separator |
| Naming.AddonsMainPath | generator.py:40-41 | the root is never empty; a configured non-empty root is used as is; otherwise it is the working directory followed by `packages`, with one separator inserted between them unless the working directory already ends in one (just `packages` for an empty working directory), and its basename is `packages` |
| Naming.SafeExclusionNeverMatches | generator.py:84-93 | no joined add-on path with a non-empty root equals `zip`, `temp` or `packages`, so the skip never happens |
| Versions.Compare | generator.py:198-207 | 0 exactly when a name lacks `-`; -1 exactly when both have one and the first version is lexicographically smaller; 1 otherwise |
| Versions.LexLessIrreflexive | generator.py:203 | no integer list is smaller than itself |
| Versions.LexLessTrichotomy | generator.py:203 | of two different integer lists, exactly one is smaller |
| Versions.CompareAntisymmetric | generator.py:203-206 | for different versions, swapping the arguments flips the answer |
| Versions.CompareEqualVersions | generator.py:203-206 | for equal versions, both argument orders answer 1, so the comparator is not antisymmetric there |
| Versions.CompareSelf | generator.py:198-206 | a dashed name compared with itself answers 1, never 0 |
| Versions.CompareZipNames | generator.py:198-207 | two generated archive names compare by their numeric versions, lexicographically |
| Versions.CompareNumericExample | generator.py:203 | `1.9.0` and `1.10.0` are numeric versions and the parsed list of `1.9.0` is lexicographically smaller: components compare as integers, not text |
| Versions.CompareComponentExample | generator.py:203 | `1.2.33` and `1.10.0` are numeric versions and the parsed list of `1.2.33` is lexicographically smaller: the first differing component decides, whatever the later ones are |
| Versions.ParsedExample | generator.py:203 | a `.`-join of digit runs parses to the list of their integer values |
| VersionScan.ValueEnd | generator.py:106 | the lazy `.*?[0-9]"` ends at the first digit-quote pair, provided no newline comes before it; otherwise there is no match |
| VersionScan.FindVersions | generator.py:106 | every match is non-empty, ends in a digit, spans one line, and occurs as `version="<match>"` in the text |
| VersionScan.VersionPick | generator.py:106 | a version exists exactly when there are at least two matches; it then occurs as an attribute value in the text |
| VersionScan.SkipToAttribute | generator.py:106 | positions where no `version="` starts contribute no match |
| VersionScan.MatchAfterSkip | generator.py:106 | the first well-formed `version="v"` yields `v`, and scanning resumes after its closing quote |
| VersionScan.PickSecondAttribute | generator.py:106 | the picked version is the value of the second `version="…"` attribute: the `<addon>` element's, not the XML declaration's |
| VersionScan.PickFailsWithOneAttribute | generator.py:106 | a manifest whose only attribute is the declaration's has no version |
| History.SelectArchives | generator.py:215-221 | the chosen names all end in `.zip`, form a prefix of the listing's zip names, and number `min(n, available)`, or all of them when `n` is negative |
| History.SelectionIsSubsequence | generator.py:215-221 | the chosen archives keep the listing's order |
| History.NonZipDoesNotCount | generator.py:218-221 | inserting a non-zip name anywhere in the listing changes nothing |
| History.ReadManifests | generator.py:219-220 | reading succeeds exactly when every archive holds `<folder>/addon.xml`, and yields those texts in order; otherwise it reports the first archive that fails |
| History.ReadManifestsPrefixFailure | generator.py:219-220 | once a prefix of the archives fails, reading more archives reports the same failure |
| History.PreviousManifests | generator.py:209-223 | a successful lookup yields one manifest per selected archive, so at most `n` of them |
| History.GetPreviousAddonXmlVer | generator.py:209-223 | the loop, with its counter and `break`, gives the same answer as reading the selected archives in order |
| ManifestFormat.FormatXmlLines | generator.py:126-135 | the block ends in a blank line, and the character before that is not whitespace |
| ManifestFormat.FormatXmlLinesLoop | generator.py:126-135 | the loop produces the block, and the block holds no `<?xml` |
| ManifestFormat.BodyIsIndentedContentLines | generator.py:129-134 | the accumulated text is the non-declaration lines, in order, each right-stripped, indented by two spaces and newline-terminated |
| ManifestFormat.FormatXmlLinesReference | generator.py:126-135 | the block is the right-stripped filter-then-indent reference, plus a blank line |
| ManifestFormat.DeclarationLinesIgnored | generator.py:131-132 | removing a declaration line from anywhere in the input leaves the block unchanged |
| ManifestFormat.IndentedAvoidsDeclaration | generator.py:134 | an indented non-declaration line holds no `<?xml` |
| ManifestFormat.BodyAvoidsDeclaration | generator.py:129-134 | the accumulated text holds no `<?xml` and, when non-empty, ends in a newline |
| ManifestFormat.FormatAvoidsDeclaration | generator.py:126-135 | no block holds `<?xml` |
| Document.Block | generator.py:102 | each manifest becomes a block that ends in a blank line and holds no `<?xml` |
| Document.Blocks | generator.py:112-113 | the history blocks correspond one to one, in order, with the previous manifests |
| Document.WithoutEntry | generator.py:109-110 | after the removal, the current version's archive is gone from the listing, every other entry remains, and nothing is added |
| Document.PreviousTexts | generator.py:104-113 | the older manifests the history reads from earlier archives: when they can all be read and `n` is not negative, there are at most `n` of them |
| Document.HistoryOf | generator.py:104-113 | the history blocks after the current one: none when `n` is 0, at most `n` when `n` is positive (a negative `n` reads every selected archive, so there is no bound), each a well-formed block |
| Document.AddonBlocks | generator.py:90-120 | an add-on contributes nothing exactly when it is skipped or its manifest is unreadable; otherwise its current block comes first, followed by at most `n` history blocks when `n` is positive, none when `n` is 0, and one per selected archive with no bound when `n` is negative |
| Document.AllBlocks | generator.py:90-113 | every block of every add-on ends in a blank line and holds no `<?xml` |
| Document.AllBlocksAppend | generator.py:90-113 | the blocks of two runs of add-ons are the blocks of the first followed by those of the second |
| Document.GenerateAddonsFile | generator.py:83-122 | the loop produces the document: the header line first, `</addons>` last |
| Document.RepositoryDocument | generator.py:83-122 | the document over the add-on folders `get_addons_folders` returns starts with the header line and ends with `</addons>` |
| Document.ListedAddonsInFolderOrder | generator.py:83-102 | the loop visits one add-on per eligible folder, in sorted folder-name order, and each path's basename is its folder name; the safe-exclusion skip never fires, so an add-on contributes nothing exactly when its `addon.xml` cannot be read, and otherwise its current block comes first |
| Document.AppendBlocks | generator.py:112-113 | appending the blocks one by one appends their concatenation |
| Document.ConcatAvoidsDeclaration | generator.py:102-113 | concatenated blocks hold no `<?xml` and end in a newline |
| Document.StripKeepsHeaderLine | generator.py:122 | `strip()` never removes any of the header line |
| Document.StripTailAvoidsDeclaration | generator.py:122 | after `strip()`, nothing past the header line holds `<?xml` when the blocks hold none |
| Document.DocumentFrame | generator.py:86-122 | the document starts with the declaration and `<addons>`, ends with `</addons>`, and holds the declaration only once at its start |
| Document.UnreadableAddonOmitted | generator.py:98-120 | an add-on whose manifest cannot be read leaves the document exactly as if it were absent |
| Document.HistoryBlocks | generator.py:104-113 | when every step succeeds, the add-on contributes its current block followed by one block per selected archive, in the archives' order, each from that archive's `<folder>/addon.xml` |
| Document.CurrentArchiveNotInHistory | generator.py:107-111 | the current version's archive is never among the history, whatever order the sort returns |
| Document.SingleVersionAttributeKeepsCurrentOnly | generator.py:104-120 | a manifest whose only attribute is the declaration's keeps its current block and has no history |
| Listings.StrLessTotal | generator.py:46 | of two different names, one sorts before the other |
| Listings.StrLessAsymmetric | generator.py:46 | no two names each sort before the other |
| Listings.StrLessTransitive | generator.py:46 | the name order is transitive |
| Listings.Insert | generator.py:46 | inserting into a sorted listing keeps it sorted and adds exactly that name |
| Listings.SortNames | generator.py:46 | `sorted(os.listdir(...))` is sorted and a permutation of the listing |
| Listings.SortedUnique | generator.py:46 | two sorted permutations of the same names are equal |
| Listings.SortNamesIsSorted | generator.py:46 | any sorted permutation of the listing is the sorted listing |
| Listings.AddonFolderNames | generator.py:44-60 | the kept names are exactly the directories in the listing with an `addon.xml`, restricted to the allow-list when it is non-empty; they keep the sorted order |
| Listings.AddonFolders | generator.py:44-60 | the result is one path per kept name, in the same order, each `os.path.join(root, name)` and an existing directory |
| Listings.AddonFolderBasenames | generator.py:95 | the basename of each returned path is its folder name |
| Listings.SortedSelection | generator.py:46-59 | filtering the sorted listing keeps exactly the listed names that pass the filter |
| Listings.SubseqOfSorted | generator.py:48-59 | a subsequence of a sorted listing is sorted |
| Listings.ListedDirectory | generator.py:184-185 | a missing or empty path lists the working directory |
| Listings.DirItems | generator.py:181-196 | the items are sorted and a subsequence of the sorted listing, so each appears once per listing entry; an item is shown exactly when it is listed, not hidden, and either a directory or a file whose name contains `.md5`, `README.md`, `.xml` or `.zip` |
| Listings.Href | generator.py:169-174 | the link is the name itself exactly when the name contains `.zip`, `.md5`, `.xml`, `.md` or `.txt`; otherwise it is the name with `/` appended |
| Listings.ListedFilesLinkAsFiles | generator.py:169-196 | every file the index shows is linked without a trailing `/` |
| Listings.DirectoryNamedLikeFile | generator.py:170 | a directory whose name contains `.md` is linked as a file |
| Packaging.LastDot | generator.py:276 | the position of the last `.` in a name, or -1 when there is none |
| Packaging.SplitExt | generator.py:276 | root and extension rebuild the name; the extension is empty or starts at the last `.`, and it is empty only when no non-dot precedes that dot |
| Packaging.SplitExtExamples | generator.py:276 | `a.pyc` has extension `.pyc`; `.pyc` has none; `a.tar.gz` has `.gz` |
| Packaging.FilesOf | generator.py:273-281 | the files written from one folder are its files that pass the test, each once and in listing order, with no sub-folder on their path |
| Packaging.Walk | generator.py:268-281 | every written file passes the include test, and every folder on its path survives pruning |
| Packaging.WalkAll | generator.py:268-272 | the same holds for each sub-folder walked in turn |
| Packaging.KeptSubdirs | generator.py:270-272 | the walk descends into exactly the sub-folders that are neither hidden nor excluded, kept in their original order |
| Packaging.PruneBeforeDescend | generator.py:268-272 | pruning the sub-folder list in place writes the same files as walking only the kept sub-folders |
| Packaging.SubdirEntryWritten | generator.py:268-286 | every file written for a surviving sub-folder is also written for its parent, under the sub-folder's name |
| Packaging.CompiledNeverWritten | generator.py:274-278 | while compiled files stay on disk, no `.pyc`, `.pyo` or `.pyd` file is written |
| Packaging.ArcName | generator.py:284 | the entry name is the path with the root and one separator cut off |
| Packaging.ZipName | generator.py:286 | the stored name replaces each separator with `/` and changes nothing else |
| Packaging.ExclusionsFor | generator.py:249-250 | the files and sub-folders excluded while packing an add-on are exactly those the two tables list under that add-on's folder name, none when it has no entry |
| Packaging.ArchiveNames | generator.py:249-286 | the archive holds one name per file the walk writes under the add-on's own exclusions, in walk order, each `<folder>/<sub-folders>/<file>` |
| Packaging.ExcludedNeverArchived | generator.py:249-281 | no written file is one the add-on's table entry excludes, and none lies below a sub-folder its entry excludes |
| Packaging.OtherAddonEntriesIgnored | generator.py:249-250 | changing or adding another add-on's table entries leaves this add-on's archive names unchanged |
| Packaging.ArcNameOfAbsName | generator.py:283-284 | cutting the root off a written file's absolute path leaves its path below the root |
| Packaging.AddonXmlNotCompiled | generator.py:276-278 | `addon.xml` has extension `.xml`, so it is never skipped as compiled |
| Packaging.ManifestArchived | generator.py:249-286 | an add-on's `addon.xml` that its own table entry does not exclude is stored as `<folder>/addon.xml`, the entry the history later reads |
| Text.RStrip | generator.py:134 | `rstrip()` is a prefix ending in a non-space, and everything it drops is whitespace |
| Text.RStripUnique | generator.py:134 | any prefix with those three properties is the result of `rstrip()` |
| Text.LStrip | generator.py:122 | `lstrip()` is a suffix starting with a non-space, and everything it drops is whitespace |
| Text.Split | generator.py:201 | `split(c)` yields at least one piece, no piece contains `c`, and there are two or more pieces exactly when `c` occurs |
| Text.JoinSplit | generator.py:201 | joining the pieces of a split gives back the string |
| Text.SplitJoin | generator.py:203 | splitting a join of separator-free pieces gives back the pieces |
| Text.SplitLines | generator.py:102 | `splitlines()` yields lines without line breaks, and none at all for empty text |
| Text.SplitLinesJoin | generator.py:102 | splitting a newline-join of break-free lines, the last one non-empty, gives back the lines |
| Text.DropLast | generator.py:201 | `s[0:-4]` is the prefix of `s` four characters shorter, or empty when `s` is shorter than that |

## Left out

- Reading and writing files, `os.listdir`, `os.path.isdir`/`exists`, `os.makedirs`, `os.remove` and opening archives are not modelled as effects. Their results are inputs: a `FileSystem` of existing paths, the manifest text or its absence, the archive listing, and each archive's entries.
- `generate_md5_file` and `_save_file` (generator.py:137-152) are left out because they only hash and write bytes.
- Printing and the `__init__` entry points are left out.
- The Mako rendering in `generate_html_index` (generator.py:225-230) is reduced to the item list and the link rule of the template. The page layout and the `basename` header are left out.
- The compiled-file purge (generator.py:253-261) is left out as a disk effect. As written, it rebinds `filename` to the stem and removes that path, not the compiled file. On a folder holding `x.pyc` but no `x`, `os.remove` raises, and the add-on's archive is not written.
- Document.AddonBlocks: Python's `sorted` with `cmp_to_key(_file_compare_version)` is the parameter `sortDesc`. It answers `None` where the comparator raises. It is a parameter because the comparator never answers 0 for dashed names and answers 1 in both orders for equal versions. It is not a consistent order, so the result depends on the internals of Python's sort. The lemmas about history assume only what they state about the returned order.
- Versions.Compare: it requires version pieces that are runs of ASCII digits, and the model does not cover other input. Python's `int()` also accepts signs, surrounding whitespace, underscores and other Unicode digits. Names it rejects correspond to `sortDesc` answering `None`.
- Naming.PathJoin: it models `posixpath.join` and `posixpath.basename`, with `sep` as the only separator. On Windows, `ntpath` also treats `/` as a separator, so `join("D:/GIT/", "x")` gives `D:/GIT/x`. It joins a drive-only root without a separator, so `join("D:", "x")` gives `D:x`. Neither case is modelled.
- Packaging.ArcName: it assumes the add-ons root is already absolute and normalised, without a trailing separator, as `os.path.abspath` leaves it. Symbolic links and `..` components are not modelled.
- Packaging.ZipName: it models only the separator-to-`/` conversion of `zipfile`. Drive letters and leading separators do not occur below the root, and their stripping is not modelled.
- Document.GenerateAddonsFile: it takes any sequence of add-ons, so its skip test can fire on an input such as a path `zip`. `Document.RepositoryDocument` is the instance over the folders `get_addons_folders` returns, and for those `Document.ListedAddonsInFolderOrder` proves that the skip never fires. What is read under each folder path is the parameter `read`.
- The walk order inside a folder is the order of the `Folder` value. `os.walk` takes that order from the operating system.
- Exceptions other than the ones named above (encoding errors, permissions) are not distinguished. Each one behaves as a missing input.

=== FILE: document.dfy ===
/** `GeneratorXML.generate_addons_file`, the string assembly of the
    combined `addons.xml`: a fixed header, then for each add-on its current
    manifest block followed by the blocks of its previous versions, then
    `strip()` of the whole and the closing tag.

    Everything the source reads from disk arrives as data: the text of each
    add-on's `addon.xml` (absent when it cannot be read), the listing of its
    folder under the archive directory (absent when that folder is missing)
    and the contents of the archives in it. The sort of that listing by the
    version comparator is a parameter, `sortDesc`, answering `None` where the
    comparator raises. */
module Document {
  import opened Text
  import opened Seqs
  import opened Wrappers
  import opened Naming
  import opened History
  import opened ManifestFormat
  import opened VersionScan
  import Listings

  const DeclarationLine := "<?xml" + " version=\"1.0\"" + " encoding=\"UTF-8\"" + " standalone=\"yes\"?>"
  /** The header without its final newline: the part `strip()` can never touch. */
  const HeaderLine := DeclarationLine + "\n<addons>"
  const Header := HeaderLine + "\n"
  const Closing := "\n</addons>\n"

  /** What the generator reads about one add-on folder. */
  datatype AddonSource = AddonSource(
    path: string,
    manifest: Option<string>,
    zipListing: Option<seq<string>>,
    archives: map<string, Archive>)

  /** The generator's settings and the sort it delegates to Python. */
  datatype Settings = Settings(
    previous: int,
    zipFolder: string,
    sep: char,
    sortDesc: seq<string> -> Option<seq<string>>)

  /** What every block of the document looks like. */
  predicate IsBlock(b: string) {
    EndsWith(b, "\n\n") && !Contains(b, Declaration)
  }

  /** One `addon.xml` text as a block of the document. */
  function Block(text: string): (b: string)
    ensures IsBlock(b)
  {
    FormatAvoidsDeclaration(SplitLines(text));
    FormatXmlLines(SplitLines(text))
  }

  function Blocks(texts: seq<string>): (bs: seq<string>)
    ensures |bs| == |texts|
    ensures forall k :: 0 <= k < |texts| ==> bs[k] == Block(texts[k])
  {
    seq(|texts|, k requires 0 <= k < |texts| => Block(texts[k]))
  }

  /** The listing after `os.remove` of the archive named for the current
      version: directory entries are unique, so the entry simply disappears. */
  function WithoutEntry(listing: seq<string>, name: string): (r: seq<string>)
    ensures name !in r
    ensures forall x :: x in listing && x != name ==> x in r
    ensures forall x :: x in r ==> x in listing
  {
    Filter(listing, x => x != name)
  }

  /** The manifests of the previous versions, or `None` when any step of
      the lookup raises: too few version matches, a missing archive folder,
      a comparator that raises, an unreadable archive. */
  function PreviousTexts(a: AddonSource, text: string, cfg: Settings): (prev: Option<seq<string>>)
    ensures prev.Some? && cfg.previous >= 0 ==> |prev.value| <= cfg.previous
  {
    var name := Basename(a.path, cfg.sep);
    match VersionPick(text)
    case None => None
    case Some(v) =>
      match a.zipListing
      case None => None
      case Some(listing) =>
        match cfg.sortDesc(WithoutEntry(listing, ZipFileName(name, v)))
        case None => None
        case Some(sorted) =>
          match PreviousManifests(name, sorted, cfg.previous, a.archives)
          case Failure(_) => None
          case Success(prev) => Some(prev)
  }

  /** The blocks of the previous versions: none when history is off or
      when the lookup raises. */
  function HistoryOf(a: AddonSource, text: string, cfg: Settings): (history: seq<string>)
    ensures forall k :: 0 <= k < |history| ==> IsBlock(history[k])
    ensures cfg.previous == 0 ==> history == []
    ensures cfg.previous > 0 ==> |history| <= cfg.previous
  {
    if cfg.previous == 0 then []
    else match PreviousTexts(a, text, cfg)
      case None => []
      case Some(prev) => Blocks(prev)
  }

  /** The blocks one add-on contributes, in the order the source appends
      them. Once the current block is appended, a later exception leaves it
      in place and drops the whole history. */
  function AddonBlocks(a: AddonSource, cfg: Settings): (blocks: seq<string>)
    ensures blocks == [] <==> a.path in SafeExcludedFolders(cfg.zipFolder) || a.manifest.None?
    ensures blocks != [] ==> blocks[0] == Block(a.manifest.value)
    ensures cfg.previous == 0 ==> |blocks| <= 1
    ensures cfg.previous > 0 ==> |blocks| <= cfg.previous + 1
    ensures forall b :: b in blocks ==> IsBlock(b)
  {
    if a.path in SafeExcludedFolders(cfg.zipFolder) || a.manifest.None? then []
    else [Block(a.manifest.value)] + HistoryOf(a, a.manifest.value, cfg)
  }

  /** The blocks of all add-ons, add-on after add-on. */
  function AllBlocks(addons: seq<AddonSource>, cfg: Settings): (blocks: seq<string>)
    ensures forall b :: b in blocks ==> IsBlock(b)
  {
    FlatMapKeeps(addons, a => AddonBlocks(a, cfg), IsBlock);
    FlatMap(addons, a => AddonBlocks(a, cfg))
  }

  /** The text of `addons.xml`. */
  function AddonsDocument(addons: seq<AddonSource>, cfg: Settings): string {
    Strip(Header + Concat(AllBlocks(addons, cfg))) + Closing
  }

  /** The source's loop: the header, then every add-on's blocks appended in turn. */
  method GenerateAddonsFile(addons: seq<AddonSource>, cfg: Settings) returns (doc: string)
    ensures doc == AddonsDocument(addons, cfg)
    ensures StartsWith(doc, HeaderLine) && EndsWith(doc, Closing)
  {
    var xml := Header;
    for i := 0 to |addons|
      invariant xml == Header + Concat(AllBlocks(addons[..i], cfg))
    {
      var blocks := AddonBlocks(addons[i], cfg);
      AllBlocksStep(addons, i, cfg);
      xml := AppendBlocks(xml, blocks);
    }
    assert addons[..|addons|] == addons;
    doc := Strip(xml) + Closing;
    DocumentFrame(addons, cfg);
  }

  /** `addons_xml += block` for each block in turn. */
  method AppendBlocks(xml: string, blocks: seq<string>) returns (r: string)
    ensures r == xml + Concat(blocks)
  {
    r := xml;
    for j := 0 to |blocks|
      invariant r == xml + Concat(blocks[..j])
    {
      assert blocks[..j + 1][..j] == blocks[..j];
      r := r + blocks[j];
    }
    assert blocks[..|blocks|] == blocks;
  }

  lemma AllBlocksStep(addons: seq<AddonSource>, i: nat, cfg: Settings)
    requires i < |addons|
    ensures Header + Concat(AllBlocks(addons[..i + 1], cfg))
            == (Header + Concat(AllBlocks(addons[..i], cfg))) + Concat(AddonBlocks(addons[i], cfg))
  {
    var before := AllBlocks(addons[..i], cfg);
    var blocks := AddonBlocks(addons[i], cfg);
    assert addons[..i + 1] == addons[..i] + [addons[i]];
    AllBlocksAppend(addons[..i], [addons[i]], cfg);
    AllBlocksSingle(addons[i], cfg);
    ConcatAppend(before, blocks);
    SeqAssoc(Header, Concat(before), Concat(blocks));
  }

  lemma SeqAssoc(a: string, b: string, c: string)
    ensures a + (b + c) == (a + b) + c
  {
  }

  // ---------------------------------------------------------------------
  // The shape of the document

  /** The closing tag holds no `?`, so no declaration. */
  lemma ClosingAvoidsDeclaration()
    ensures !Contains(Closing, Declaration)
  {
    forall i | 0 <= i <= |Closing|
      ensures !OccursAt(Closing, Declaration, i)
    {
      if i + |Declaration| <= |Closing| {
        assert Closing[i..i + |Declaration|][1] != Declaration[1];
      }
    }
  }

  /** Blocks each ending in a newline and free of declarations concatenate
      into a text free of declarations. */
  lemma {:induction false} ConcatAvoidsDeclaration(parts: seq<string>)
    requires forall b :: b in parts ==> IsBlock(b)
    ensures !Contains(Concat(parts), Declaration)
    ensures Concat(parts) == [] || Concat(parts)[|Concat(parts)| - 1] == '\n'
    decreases |parts|
  {
    if parts != [] {
      var init := parts[..|parts| - 1];
      var last := parts[|parts| - 1];
      assert last in parts;
      assert forall b :: b in init ==> b in parts;
      ConcatAvoidsDeclaration(init);
      assert last[|last| - 1] == '\n';
      if Concat(init) == [] {
        assert Concat(parts) == last;
      } else {
        ConcatAvoids(Concat(init), last, Declaration);
      }
    }
  }

  /** `strip()` of the header and the blocks keeps the header line. */
  lemma StripKeepsHeaderLine(body: string)
    ensures StartsWith(Strip(Header + body), HeaderLine)
  {
    HeaderLineEnds();
    StripAfterLine(HeaderLine, body);
  }

  /** What `strip()` leaves after the header line is a prefix of the blocks. */
  lemma StripTailAvoidsDeclaration(body: string)
    requires !Contains(body, Declaration)
    ensures var kept := Strip(Header + body);
      |HeaderLine| <= |kept| && !Contains(kept[|HeaderLine|..], Declaration)
  {
    HeaderLineEnds();
    StripAfterLine(HeaderLine, body);
  }

  lemma HeaderLineEnds()
    ensures HeaderLine != [] && HeaderLine[0] == '<' && HeaderLine[|HeaderLine| - 1] == '>'
  {
  }

  /** `strip()` of a line with non-space ends, a newline and a body keeps
      the line, and after it only a prefix of the newline and the body. */
  lemma StripAfterLine(h: string, body: string)
    requires h != [] && !IsSpace(h[0]) && !IsSpace(h[|h| - 1])
    ensures var kept := Strip(h + "\n" + body);
      StartsWith(kept, h)
      && (!Contains(body, Declaration) ==> !Contains(kept[|h|..], Declaration))
  {
    var s := h + "\n" + body;
    assert s[0] == h[0];
    StripKeepsLeadingText(s);
    assert s[..|h|] == h;
    RStripKeepsPrefix(s, h);
    var kept := RStrip(s);
    if !Contains(body, Declaration) {
      var tail := s[|h|..];
      assert tail == "\n" + body;
      AvoidsByAlphabet("\n", Declaration);
      if body != [] {
        ConcatAvoids("\n", body, Declaration);
      }
      assert StartsWith(tail, kept[|h|..]);
      PrefixAvoids(tail, kept[|h|..], Declaration);
    }
  }

  /** The document opens with the header line, ends with the closing tag,
      and holds no XML declaration after the header line. */
  lemma DocumentFrame(addons: seq<AddonSource>, cfg: Settings)
    ensures var doc := AddonsDocument(addons, cfg);
      StartsWith(doc, HeaderLine) && EndsWith(doc, Closing)
      && !Contains(doc[|HeaderLine|..], Declaration)
  {
    var body := Concat(AllBlocks(addons, cfg));
    ConcatAvoidsDeclaration(AllBlocks(addons, cfg));
    FrameAround(body);
  }

  /** The frame of `strip(header + body) + closing` for a body free of declarations. */
  lemma FrameAround(body: string)
    requires !Contains(body, Declaration)
    ensures var doc := Strip(Header + body) + Closing;
      StartsWith(doc, HeaderLine) && EndsWith(doc, Closing)
      && !Contains(doc[|HeaderLine|..], Declaration)
  {
    StripKeepsHeaderLine(body);
    StripTailAvoidsDeclaration(body);
    ClosingAvoidsDeclaration();
    assert Closing[0] == '\n';
    AppendKeepsFrame(Strip(Header + body), HeaderLine, Closing);
  }

  /** Appending a declaration-free text that starts outside the declaration
      keeps the head and keeps the rest free of declarations. */
  lemma AppendKeepsFrame(kept: string, h: string, c: string)
    requires StartsWith(kept, h) && !Contains(kept[|h|..], Declaration)
    requires !Contains(c, Declaration) && c != [] && c[0] !in Declaration
    ensures StartsWith(kept + c, h) && EndsWith(kept + c, c)
    ensures !Contains((kept + c)[|h|..], Declaration)
  {
    assert (kept + c)[|h|..] == kept[|h|..] + c;
    assert (kept + c)[..|h|] == kept[..|h|];
    assert (kept + c)[|kept + c| - |c|..] == c;
    ConcatAvoids(kept[|h|..], c, Declaration);
  }

  /** The add-ons' blocks appear add-on by add-on, in folder order. */
  lemma AllBlocksAppend(xs: seq<AddonSource>, ys: seq<AddonSource>, cfg: Settings)
    ensures AllBlocks(xs + ys, cfg) == AllBlocks(xs, cfg) + AllBlocks(ys, cfg)
  {
    FlatMapAppend(xs, ys, a => AddonBlocks(a, cfg));
  }

  /** An add-on whose manifest cannot be read leaves no trace in the document. */
  lemma UnreadableAddonOmitted(xs: seq<AddonSource>, a: AddonSource, ys: seq<AddonSource>, cfg: Settings)
    requires a.manifest.None?
    ensures AddonsDocument(xs + [a] + ys, cfg) == AddonsDocument(xs + ys, cfg)
  {
    AllBlocksSkip(xs, a, ys, cfg);
  }

  /** An add-on without blocks does not change the blocks of the others. */
  lemma AllBlocksSkip(xs: seq<AddonSource>, a: AddonSource, ys: seq<AddonSource>, cfg: Settings)
    requires AddonBlocks(a, cfg) == []
    ensures AllBlocks(xs + [a] + ys, cfg) == AllBlocks(xs + ys, cfg)
  {
    AllBlocksAppend(xs + [a], ys, cfg);
    AllBlocksAppend(xs, [a], cfg);
    AllBlocksSingle(a, cfg);
    AllBlocksAppend(xs, ys, cfg);
    assert AllBlocks(xs, cfg) + [] == AllBlocks(xs, cfg);
  }

  lemma AllBlocksSingle(a: AddonSource, cfg: Settings)
    ensures AllBlocks([a], cfg) == AddonBlocks(a, cfg)
  {
    var f := (x: AddonSource) => AddonBlocks(x, cfg);
    assert AllBlocks([a], cfg) == FlatMap([a], f);
    assert [a][..0] == [];
    assert FlatMap([a], f) == FlatMap([], f) + f(a);
  }

  // ---------------------------------------------------------------------
  // One add-on's history

  /** When every step succeeds, the current block is followed by one block
      per selected archive, in lookup order, each the formatted manifest
      stored in that archive. */
  lemma HistoryBlocks(a: AddonSource, cfg: Settings, v: string, sorted: seq<string>)
    requires a.path !in SafeExcludedFolders(cfg.zipFolder) && a.manifest.Some?
    requires cfg.previous != 0 && VersionPick(a.manifest.value) == Some(v) && a.zipListing.Some?
    requires cfg.sortDesc(WithoutEntry(a.zipListing.value, ZipFileName(Basename(a.path, cfg.sep), v))) == Some(sorted)
    requires PreviousManifests(Basename(a.path, cfg.sep), sorted, cfg.previous, a.archives).Success?
    ensures var blocks := AddonBlocks(a, cfg);
      var chosen := SelectArchives(sorted, cfg.previous);
      |blocks| == 1 + |chosen|
      && forall k :: 0 <= k < |chosen| ==>
           blocks[k + 1] == Block(a.archives[chosen[k]][ManifestEntry(Basename(a.path, cfg.sep))])
  {
    var name := Basename(a.path, cfg.sep);
    var chosen := SelectArchives(sorted, cfg.previous);
    var prev := PreviousManifests(name, sorted, cfg.previous, a.archives).value;
    assert PreviousTexts(a, a.manifest.value, cfg) == Some(prev);
    assert HistoryOf(a, a.manifest.value, cfg) == Blocks(prev);
    assert AddonBlocks(a, cfg) == [Block(a.manifest.value)] + Blocks(prev);
    assert |prev| == |chosen|;
    forall k | 0 <= k < |chosen|
      ensures prev[k] == a.archives[chosen[k]][ManifestEntry(name)]
    {
    }
  }

  /** If the sort returns a permutation of what it is given, the archive
      named for the current version (removed just before the lookup) is
      never among the archives the history is read from. */
  lemma CurrentArchiveNotInHistory(a: AddonSource, cfg: Settings, v: string, sorted: seq<string>)
    requires a.zipListing.Some?
    requires cfg.sortDesc(WithoutEntry(a.zipListing.value, ZipFileName(Basename(a.path, cfg.sep), v))) == Some(sorted)
    requires multiset(sorted) == multiset(WithoutEntry(a.zipListing.value, ZipFileName(Basename(a.path, cfg.sep), v)))
    ensures ZipFileName(Basename(a.path, cfg.sep), v) !in SelectArchives(sorted, cfg.previous)
  {
    var zipName := ZipFileName(Basename(a.path, cfg.sep), v);
    var rest := WithoutEntry(a.zipListing.value, zipName);
    assert zipName !in multiset(rest);
    assert zipName !in sorted;
    FilterIsSubseq(sorted, IsZipName);
  }

  /** A manifest whose only `version="…"` attribute is the declaration's
      yields its current block and nothing else, whatever the archives hold. */
  lemma SingleVersionAttributeKeepsCurrentOnly(a: AddonSource, cfg: Settings, decl: string, v0: string, rest: string)
    requires a.path !in SafeExcludedFolders(cfg.zipFolder)
    requires NoAttributeBefore(decl + Attribute, |decl|)
    requires IsVersionValue(v0) && '"' !in v0
    requires !Contains(rest, Attribute)
    requires a.manifest == Some(decl + Attribute + v0 + "\"" + rest)
    ensures AddonBlocks(a, cfg) == [Block(a.manifest.value)]
  {
    PickFailsWithOneAttribute(decl, v0, rest);
    assert PreviousTexts(a, a.manifest.value, cfg).None?;
    assert HistoryOf(a, a.manifest.value, cfg) == [];
  }

  // ---------------------------------------------------------------------
  // The add-ons the loop visits

  /** What the generator reads for one add-on folder: its `addon.xml`, the
      listing of its archive folder and the archives in it. */
  datatype FolderData = FolderData(
    manifest: Option<string>,
    zipListing: Option<seq<string>>,
    archives: map<string, Archive>)

  /** The add-ons `for addon in get_addons_folders()` visits, in that order,
      each with what is read under its path. */
  function ListedAddons(fs: Listings.FileSystem, main: string, listing: seq<string>, only: seq<string>,
                        read: string -> FolderData, sep: char): (addons: seq<AddonSource>)
    ensures |addons| == |Listings.AddonFolders(fs, main, listing, only, sep)|
  {
    var paths := Listings.AddonFolders(fs, main, listing, only, sep);
    seq(|paths|, k requires 0 <= k < |paths| =>
      var d := read(paths[k]);
      AddonSource(paths[k], d.manifest, d.zipListing, d.archives))
  }

  /** `generate_addons_file` over the add-on folders of the repository. */
  function RepositoryDocument(fs: Listings.FileSystem, main: string, listing: seq<string>, only: seq<string>,
                              read: string -> FolderData, cfg: Settings): (doc: string)
    ensures StartsWith(doc, HeaderLine) && EndsWith(doc, Closing)
  {
    DocumentFrame(ListedAddons(fs, main, listing, only, read, cfg.sep), cfg);
    AddonsDocument(ListedAddons(fs, main, listing, only, read, cfg.sep), cfg)
  }

  /** The document's add-ons are the eligible folders in sorted name order,
      and the safe-exclusion skip never fires for them: an add-on contributes
      nothing exactly when its `addon.xml` cannot be read, and otherwise its
      current manifest comes first. */
  lemma ListedAddonsInFolderOrder(fs: Listings.FileSystem, main: string, listing: seq<string>, only: seq<string>,
                                  read: string -> FolderData, cfg: Settings)
    requires main != [] && forall item :: item in listing ==> cfg.sep !in item
    requires cfg.sep !in cfg.zipFolder && cfg.sep !in "temp" && cfg.sep !in "packages"
    ensures var names := Listings.AddonFolderNames(fs, main, listing, only, cfg.sep);
      var addons := ListedAddons(fs, main, listing, only, read, cfg.sep);
      |addons| == |names|
      && forall k :: 0 <= k < |addons| ==>
        Basename(addons[k].path, cfg.sep) == names[k]
        && (AddonBlocks(addons[k], cfg) == [] <==> read(addons[k].path).manifest.None?)
        && (read(addons[k].path).manifest.Some? ==>
              AddonBlocks(addons[k], cfg)[0] == Block(read(addons[k].path).manifest.value))
  {
    var names := Listings.AddonFolderNames(fs, main, listing, only, cfg.sep);
    var paths := Listings.AddonFolders(fs, main, listing, only, cfg.sep);
    var addons := ListedAddons(fs, main, listing, only, read, cfg.sep);
    Listings.AddonFolderBasenames(fs, main, listing, only, cfg.sep);
    forall k | 0 <= k < |addons|
      ensures addons[k].path !in SafeExcludedFolders(cfg.zipFolder)
    {
      assert addons[k].path == paths[k] == PathJoin(main, names[k], cfg.sep);
      SafeExclusionNeverMatches(main, names[k], cfg.sep, cfg.zipFolder);
    }
  }
}

=== FILE: history.dfy ===
/** `GeneratorZIP.get_previous_addon_xml_ver`: the manifests of earlier
    versions of one add-on, read from the archives in `zip/<folder>/`.
    The directory listing arrives already sorted, newest first, by the
    version comparator; the first `n` names ending in `.zip` are opened
    and the entry `<folder>/addon.xml` of each is read. Names that do
    not end in `.zip` are passed over without counting towards `n`. */
module History {
  import opened Text
  import opened Seqs
  import opened Wrappers

  /** An archive's contents: entry path to decoded text. */
  type Archive = map<string, string>

  /** Why a lookup fails: the listed file cannot be opened as an archive,
      or it lacks the manifest entry (a `KeyError` in the source). */
  datatype LookupError = UnreadableArchive(name: string) | MissingManifest(name: string)

  predicate IsZipName(item: string) {
    EndsWith(item, ".zip")
  }

  /** The entries of a listing that end in `.zip`, in listing order. */
  function ZipsOf(items: seq<string>): seq<string> {
    Filter(items, IsZipName)
  }

  /** The archives the lookup opens: the first `n` `.zip` names of the
      listing. A negative `n` never equals the counter, so it takes them all. */
  function SelectArchives(items: seq<string>, n: int): (chosen: seq<string>)
    ensures forall k :: 0 <= k < |chosen| ==> IsZipName(chosen[k])
    ensures n >= 0 ==> |chosen| == if n < |ZipsOf(items)| then n else |ZipsOf(items)|
    ensures StartsWithSeq(ZipsOf(items), chosen)
    ensures (n < 0 || |ZipsOf(items)| <= n) ==> chosen == ZipsOf(items)
  {
    var zips := ZipsOf(items);
    if 0 <= n < |zips| then zips[..n] else zips
  }

  /** The chosen archives appear in the listing in the same order. */
  lemma SelectionIsSubsequence(items: seq<string>, n: int)
    ensures IsSubseq(SelectArchives(items, n), items)
  {
    var zips := ZipsOf(items);
    FilterIsSubseq(items, IsZipName);
    PrefixIsSubseq(zips, items, |SelectArchives(items, n)|);
    assert zips[..|zips|] == zips;
  }

  /** A name that does not end in `.zip` never uses up one of the `n` places. */
  lemma NonZipDoesNotCount(a: seq<string>, x: string, b: seq<string>, n: int)
    requires !IsZipName(x)
    ensures SelectArchives(a + [x] + b, n) == SelectArchives(a + b, n)
  {
    FilterConcat(a + [x], b, IsZipName);
    FilterConcat(a, [x], IsZipName);
    FilterConcat(a, b, IsZipName);
  }

  // ---------------------------------------------------------------------
  // Reading the manifests

  /** The path of the manifest inside an archive of `folder`. */
  function ManifestEntry(folder: string): string {
    folder + "/addon.xml"
  }

  predicate Readable(store: map<string, Archive>, name: string, folder: string) {
    name in store && ManifestEntry(folder) in store[name]
  }

  function ErrorFor(store: map<string, Archive>, name: string): LookupError {
    if name in store then MissingManifest(name) else UnreadableArchive(name)
  }

  /** Read the manifest of each named archive in turn; the first archive
      that cannot be read aborts the whole lookup. */
  function ReadManifests(folder: string, names: seq<string>, store: map<string, Archive>)
    : (r: Result<seq<string>, LookupError>)
    ensures r.Success? <==> forall k :: 0 <= k < |names| ==> Readable(store, names[k], folder)
    ensures r.Success? ==> |r.value| == |names|
    ensures r.Success? ==> forall k :: 0 <= k < |names| ==> r.value[k] == store[names[k]][ManifestEntry(folder)]
    ensures r.Failure? ==> exists k :: (0 <= k < |names| && !Readable(store, names[k], folder)
              && r.error == ErrorFor(store, names[k])
              && forall j :: 0 <= j < k ==> Readable(store, names[j], folder))
    decreases |names|
  {
    if names == [] then Success([])
    else
      var init := names[..|names| - 1];
      var last := names[|names| - 1];
      assert forall k :: 0 <= k < |init| ==> init[k] == names[k];
      match ReadManifests(folder, init, store)
      case Failure(e) => Failure(e)
      case Success(texts) =>
        if Readable(store, last, folder) then
          var r := texts + [store[last][ManifestEntry(folder)]];
          assert forall k :: 0 <= k < |init| ==> r[k] == texts[k];
          Success(r)
        else
          assert !Readable(store, names[|init|], folder);
          Failure(ErrorFor(store, last))
  }

  /** Once a prefix of the names fails, the whole lookup fails the same way. */
  lemma {:induction false} ReadManifestsPrefixFailure(folder: string, names: seq<string>, k: nat,
                                                       store: map<string, Archive>)
    requires k <= |names| && ReadManifests(folder, names[..k], store).Failure?
    ensures ReadManifests(folder, names, store) == ReadManifests(folder, names[..k], store)
    decreases |names| - k
  {
    if k < |names| {
      ReadManifestsPrefixFailure(folder, names[..|names| - 1], k, store);
      assert names[..|names| - 1][..k] == names[..k];
    } else {
      assert names[..k] == names;
    }
  }

  /** `get_previous_addon_xml_ver` as a function of its inputs. */
  function PreviousManifests(folder: string, sortedItems: seq<string>, n: int, store: map<string, Archive>)
    : (r: Result<seq<string>, LookupError>)
    ensures r.Success? ==> |r.value| == |SelectArchives(sortedItems, n)|
    ensures r.Success? && n >= 0 ==> |r.value| <= n
  {
    ReadManifests(folder, SelectArchives(sortedItems, n), store)
  }

  /** The lookup written as the source's loop: a counter of opened
      archives, a `break` when it reaches `n`, and a read that raises on
      the first bad archive. */
  method GetPreviousAddonXmlVer(folder: string, sortedItems: seq<string>, n: int, store: map<string, Archive>)
    returns (r: Result<seq<string>, LookupError>)
    ensures r == PreviousManifests(folder, sortedItems, n, store)
  {
    var addonXmls: seq<string> := [];
    var index := 0;
    var i := 0;
    while i < |sortedItems|
      invariant 0 <= i <= |sortedItems|
      invariant index == |ZipsOf(sortedItems[..i])|
      invariant n >= 0 ==> index <= n
      invariant ReadManifests(folder, ZipsOf(sortedItems[..i]), store) == Success(addonXmls)
    {
      if index == n {
        break;
      }
      var item := sortedItems[i];
      ZipsStep(sortedItems, i);
      if IsZipName(item) {
        if !Readable(store, item, folder) {
          FailureAt(folder, sortedItems, n, i, store);
          return Failure(ErrorFor(store, item));
        }
        ReadStep(folder, ZipsOf(sortedItems[..i]), item, store);
        addonXmls := addonXmls + [store[item][ManifestEntry(folder)]];
        index := index + 1;
      }
      i := i + 1;
    }
    SelectedPrefix(sortedItems, n, i);
    return Success(addonXmls);
  }

  /** Scanning one more listing entry adds it to the `.zip` names seen
      exactly when it ends in `.zip`. */
  lemma ZipsStep(items: seq<string>, i: nat)
    requires i < |items|
    ensures IsZipName(items[i]) ==> ZipsOf(items[..i + 1]) == ZipsOf(items[..i]) + [items[i]]
    ensures !IsZipName(items[i]) ==> ZipsOf(items[..i + 1]) == ZipsOf(items[..i])
  {
    FilterConcat(items[..i], [items[i]], IsZipName);
    assert items[..i + 1] == items[..i] + [items[i]];
    assert ZipsOf(items[..i]) + [] == ZipsOf(items[..i]);
  }

  /** Reading one more archive extends a successful lookup, or fails it. */
  lemma ReadStep(folder: string, names: seq<string>, item: string, store: map<string, Archive>)
    ensures ReadManifests(folder, names + [item], store) ==
      match ReadManifests(folder, names, store)
      case Failure(e) => Failure(e)
      case Success(texts) =>
        if Readable(store, item, folder) then Success(texts + [store[item][ManifestEntry(folder)]])
        else Failure(ErrorFor(store, item))
  {
    assert (names + [item])[..|names|] == names;
  }

  /** The first unreadable archive among the chosen ones is the error reported. */
  lemma FailureAt(folder: string, items: seq<string>, n: int, i: nat, store: map<string, Archive>)
    requires i < |items| && IsZipName(items[i]) && !Readable(store, items[i], folder)
    requires n < 0 || |ZipsOf(items[..i])| < n
    requires ReadManifests(folder, ZipsOf(items[..i]), store).Success?
    ensures PreviousManifests(folder, items, n, store) == Failure(ErrorFor(store, items[i]))
  {
    ZipsStep(items, i);
    var seen := ZipsOf(items[..i + 1]);
    ReadStep(folder, ZipsOf(items[..i]), items[i], store);
    SelectedPrefix(items, n, i + 1);
    var chosen := SelectArchives(items, n);
    assert chosen[..|seen|] == seen;
    ReadManifestsPrefixFailure(folder, chosen, |seen|, store);
  }

  /** While the counter is below `n`, the `.zip` names seen so far open the selection. */
  lemma SelectedPrefix(items: seq<string>, n: int, i: nat)
    requires i <= |items|
    requires n < 0 || |ZipsOf(items[..i])| <= n
    ensures var seen := ZipsOf(items[..i]);
      StartsWithSeq(SelectArchives(items, n), seen)
      && (|seen| == n || i == |items| ==> SelectArchives(items, n) == seen)
  {
    assert items == items[..i] + items[i..];
    FilterConcat(items[..i], items[i..], IsZipName);
  }
}

=== FILE: listings.dfy ===
/** The directory filters: which folders of the add-ons root are add-ons
    (`get_addons_folders`), which entries a generated index page lists
    (`GeneratorZIP.get_dir_items`), and how the index page links each entry
    (the `href` rule of `index_template`). Both filters walk
    `sorted(os.listdir(...))`, so the module also holds Python's string
    order and a sort by it. */
module Listings {
  import opened Text
  import opened Seqs
  import opened Wrappers
  import opened Naming

  // ---------------------------------------------------------------------
  // Python's string order and `sorted`

  /** `a < b` on Python strings: by code point, a proper prefix first. */
  predicate StrLess(a: string, b: string)
    decreases |a|
  {
    if a == [] then b != []
    else if b == [] then false
    else if a[0] != b[0] then a[0] < b[0]
    else StrLess(a[1..], b[1..])
  }

  predicate StrLessEq(a: string, b: string) {
    a == b || StrLess(a, b)
  }

  /** On distinct strings one of the two is smaller. */
  lemma {:induction false} StrLessTotal(a: string, b: string)
    requires a != b
    ensures StrLess(a, b) || StrLess(b, a)
    decreases |a|
  {
    if a != [] && b != [] && a[0] == b[0] {
      assert a == [a[0]] + a[1..] && b == [b[0]] + b[1..];
      StrLessTotal(a[1..], b[1..]);
    }
  }

  lemma {:induction false} StrLessAsymmetric(a: string, b: string)
    requires StrLess(a, b)
    ensures !StrLess(b, a)
    decreases |a|
  {
    if a != [] && b != [] && a[0] == b[0] {
      StrLessAsymmetric(a[1..], b[1..]);
    }
  }

  predicate Sorted(s: seq<string>) {
    forall i, j :: 0 <= i < j < |s| ==> StrLessEq(s[i], s[j])
  }

  /** Insert `x` into a sorted sequence. */
  function Insert(x: string, s: seq<string>): (r: seq<string>)
    requires Sorted(s)
    ensures Sorted(r)
    ensures multiset(r) == multiset(s) + multiset{x}
    decreases |s|
  {
    if s == [] then [x]
    else if StrLessEq(x, s[0]) then
      assert forall j :: 0 <= j < |s| ==> StrLessEq(s[0], s[j]);
      LessEqChain(x, s);
      [x] + s
    else
      var rest := Insert(x, s[1..]);
      StrLessTotal(x, s[0]);
      assert s == [s[0]] + s[1..];
      forall y | y in rest
        ensures StrLessEq(s[0], y)
      {
        assert y in multiset(rest);
        if y != x {
          assert y in s[1..];
        }
      }
      [s[0]] + rest
  }

  /** An element below the head of a sorted sequence is below all of it. */
  lemma LessEqChain(x: string, s: seq<string>)
    requires Sorted(s) && s != [] && StrLessEq(x, s[0])
    ensures forall j :: 0 <= j < |s| ==> StrLessEq(x, s[j])
  {
    forall j | 0 <= j < |s|
      ensures StrLessEq(x, s[j])
    {
      StrLessTransitive(x, s[0], s[j]);
    }
  }

  lemma {:induction false} StrLessTransitive(a: string, b: string, c: string)
    requires StrLessEq(a, b) && StrLessEq(b, c)
    ensures StrLessEq(a, c)
    decreases |a|
  {
    if a != b && b != c && a != [] && b != [] && c != [] && a[0] == b[0] && b[0] == c[0] {
      StrLessTransitive(a[1..], b[1..], c[1..]);
      assert a == [a[0]] + a[1..] && c == [c[0]] + c[1..];
    }
  }

  /** `sorted(names)`. */
  function SortNames(names: seq<string>): (r: seq<string>)
    ensures Sorted(r)
    ensures multiset(r) == multiset(names)
    decreases |names|
  {
    if names == [] then []
    else
      var init := names[..|names| - 1];
      assert names == init + [names[|names| - 1]];
      Insert(names[|names| - 1], SortNames(init))
  }

  /** Sorting has one answer: any sorted rearrangement of the names is
      `SortNames` of them. */
  lemma {:induction false} SortedUnique(a: seq<string>, b: seq<string>)
    requires Sorted(a) && Sorted(b) && multiset(a) == multiset(b)
    ensures a == b
    decreases |a|
  {
    if a == [] {
      assert |multiset(b)| == 0;
    } else {
      assert |b| == |a| by {
        assert |multiset(a)| == |a| && |multiset(b)| == |b|;
      }
      SameHead(a, b);
      SameTail(a, b);
      SortedUnique(a[1..], b[1..]);
      assert a == [a[0]] + a[1..] && b == [b[0]] + b[1..];
    }
  }

  /** Two sorted rearrangements of the same names start alike. */
  lemma SameHead(a: seq<string>, b: seq<string>)
    requires Sorted(a) && Sorted(b) && multiset(a) == multiset(b) && a != [] && b != []
    ensures a[0] == b[0]
  {
    assert a[0] in multiset(b) && b[0] in multiset(a);
    HeadIsLeast(a, b[0]);
    HeadIsLeast(b, a[0]);
    if StrLess(a[0], b[0]) {
      StrLessAsymmetric(a[0], b[0]);
    }
  }

  lemma HeadIsLeast(a: seq<string>, x: string)
    requires Sorted(a) && x in a
    ensures StrLessEq(a[0], x)
  {
    var k :| 0 <= k < |a| && a[k] == x;
    if k > 0 {
      assert StrLessEq(a[0], a[k]);
    }
  }

  /** Removing a common head leaves sorted rearrangements of the same names. */
  lemma SameTail(a: seq<string>, b: seq<string>)
    requires Sorted(a) && Sorted(b) && multiset(a) == multiset(b) && a != [] && b != [] && a[0] == b[0]
    ensures Sorted(a[1..]) && Sorted(b[1..]) && multiset(a[1..]) == multiset(b[1..])
  {
    SortedTail(a);
    SortedTail(b);
    MultisetTail(a);
    MultisetTail(b);
  }

  lemma SortedTail(a: seq<string>)
    requires Sorted(a) && a != []
    ensures Sorted(a[1..])
  {
    forall i, j | 0 <= i < j < |a| - 1
      ensures StrLessEq(a[1..][i], a[1..][j])
    {
      assert a[1..][i] == a[i + 1] && a[1..][j] == a[j + 1];
    }
  }

  lemma MultisetTail<T>(a: seq<T>)
    requires a != []
    ensures multiset(a[1..]) == multiset(a) - multiset{a[0]}
  {
    assert a == [a[0]] + a[1..];
  }

  lemma SortNamesIsSorted(names: seq<string>, r: seq<string>)
    requires Sorted(r) && multiset(r) == multiset(names)
    ensures r == SortNames(names)
  {
    SortedUnique(r, SortNames(names));
  }

  // ---------------------------------------------------------------------
  // The directory tree, as far as the filters look at it

  /** The paths that are directories and the paths that are files. */
  datatype FileSystem = FileSystem(dirs: set<string>, files: set<string>)

  predicate Exists(fs: FileSystem, p: string) {
    p in fs.dirs || p in fs.files
  }

  // ---------------------------------------------------------------------
  // get_addons_folders

  /** The tests one entry of the add-ons root must pass: a directory, on the
      allow-list when that list is non-empty, holding an `addon.xml`. */
  predicate IsAddonFolder(fs: FileSystem, main: string, only: seq<string>, sep: char, item: string) {
    var full := PathJoin(main, item, sep);
    full in fs.dirs
    && (only == [] || item in only)
    && Exists(fs, PathJoin(full, "addon.xml", sep))
  }

  /** The names of the add-on folders, in sorted order. */
  function AddonFolderNames(fs: FileSystem, main: string, listing: seq<string>, only: seq<string>, sep: char)
    : (names: seq<string>)
    ensures Sorted(names)
    ensures IsSubseq(names, SortNames(listing))
    ensures forall item :: item in names <==> item in listing && IsAddonFolder(fs, main, only, sep, item)
    ensures only != [] ==> forall item :: item in names ==> item in only
  {
    var keep := item => IsAddonFolder(fs, main, only, sep, item);
    SortedSelection(listing, keep);
    Filter(SortNames(listing), keep)
  }

  /** `get_addons_folders()`: the full paths of those folders. */
  function AddonFolders(fs: FileSystem, main: string, listing: seq<string>, only: seq<string>, sep: char)
    : (paths: seq<string>)
    ensures |paths| == |AddonFolderNames(fs, main, listing, only, sep)|
    ensures forall k :: 0 <= k < |paths| ==>
      var item := AddonFolderNames(fs, main, listing, only, sep)[k];
      paths[k] in fs.dirs && EndsWith(paths[k], item) && (main != [] ==> StartsWith(paths[k], main))
    ensures forall k :: 0 <= k < |paths| ==>
      paths[k] == PathJoin(main, AddonFolderNames(fs, main, listing, only, sep)[k], sep)
  {
    var names := AddonFolderNames(fs, main, listing, only, sep);
    seq(|names|, k requires 0 <= k < |names| => PathJoin(main, names[k], sep))
  }

  /** `os.path.basename` of each returned path gives back its folder name,
      the name the generator then uses for archives and manifests. */
  lemma AddonFolderBasenames(fs: FileSystem, main: string, listing: seq<string>, only: seq<string>, sep: char)
    requires main != [] && forall item :: item in listing ==> sep !in item
    ensures var names := AddonFolderNames(fs, main, listing, only, sep);
      var paths := AddonFolders(fs, main, listing, only, sep);
      forall k :: 0 <= k < |paths| ==> Basename(paths[k], sep) == names[k]
  {
    var names := AddonFolderNames(fs, main, listing, only, sep);
    forall k | 0 <= k < |names|
      ensures Basename(PathJoin(main, names[k], sep), sep) == names[k]
    {
      assert names[k] in names;
      BasenameOfJoin(main, names[k], sep);
    }
  }

  /** Filtering the sorted listing: the result is sorted, in listing
      order, and holds exactly the listed names that pass. */
  lemma SortedSelection(listing: seq<string>, keep: string -> bool)
    ensures var r := Filter(SortNames(listing), keep);
      Sorted(r) && IsSubseq(r, SortNames(listing))
      && forall item :: item in r <==> item in listing && keep(item)
  {
    var sorted := SortNames(listing);
    var r := Filter(sorted, keep);
    FilterIsSubseq(sorted, keep);
    SubseqOfSorted(r, sorted);
    forall item
      ensures item in r <==> item in listing && keep(item)
    {
      assert item in sorted <==> item in multiset(sorted);
      assert item in listing <==> item in multiset(listing);
    }
  }

  /** A subsequence of a sorted sequence is sorted. */
  lemma {:induction false} SubseqOfSorted(a: seq<string>, b: seq<string>)
    requires IsSubseq(a, b) && Sorted(b)
    ensures Sorted(a)
    decreases |b|
  {
    if a != [] && b != [] {
      assert Sorted(b[1..]);
      if a[0] == b[0] && IsSubseq(a[1..], b[1..]) {
        SubseqOfSorted(a[1..], b[1..]);
        SubseqMembers(a[1..], b[1..]);
        forall i, j | 0 <= i < j < |a|
          ensures StrLessEq(a[i], a[j])
        {
          if i > 0 {
            assert a[i] == a[1..][i - 1] && a[j] == a[1..][j - 1];
          } else {
            assert a[j] in b[1..];
          }
        }
      } else {
        SubseqOfSorted(a, b[1..]);
      }
    }
  }

  lemma {:induction false} SubseqMembers(a: seq<string>, b: seq<string>)
    requires IsSubseq(a, b)
    ensures forall x :: x in a ==> x in b
    decreases |b|
  {
    if a != [] && b != [] {
      if a[0] == b[0] && IsSubseq(a[1..], b[1..]) {
        SubseqMembers(a[1..], b[1..]);
        assert forall x :: x in a ==> x == a[0] || x in a[1..];
      } else {
        SubseqMembers(a, b[1..]);
      }
    }
  }

  // ---------------------------------------------------------------------
  // get_dir_items

  /** Substrings that make a plain file worth listing. */
  const IncludedFiles := [".md5", "README.md", ".xml", ".zip"]

  predicate HasIncludedPart(item: string) {
    exists k :: 0 <= k < |IncludedFiles| && Contains(item, IncludedFiles[k])
  }

  /** `get_dir_items`' test: not hidden, and a directory or an included file. */
  predicate IsListedItem(fs: FileSystem, dir: string, sep: char, item: string) {
    !StartsWith(item, ".") && (PathJoin(dir, item, sep) in fs.dirs || HasIncludedPart(item))
  }

  /** The directory listed: the given path, or the working directory when
      none (or an empty one) is given. */
  function ListedDirectory(path: Option<string>, cwd: string): (dir: string)
    ensures path.Some? && path.value != [] ==> dir == path.value
    ensures path.None? || path.value == [] ==> dir == cwd
  {
    if path.Some? && path.value != [] then path.value else cwd
  }

  /** `get_dir_items(path)`. */
  function DirItems(fs: FileSystem, path: Option<string>, cwd: string, listing: seq<string>, sep: char)
    : (items: seq<string>)
    ensures Sorted(items)
    ensures IsSubseq(items, SortNames(listing))
    ensures forall item :: item in items <==>
      item in listing && IsListedItem(fs, ListedDirectory(path, cwd), sep, item)
    ensures forall item :: item in items ==> !StartsWith(item, ".")
    ensures forall item :: item in items && PathJoin(ListedDirectory(path, cwd), item, sep) !in fs.dirs
              ==> HasIncludedPart(item)
  {
    var dir := ListedDirectory(path, cwd);
    var keep := item => IsListedItem(fs, dir, sep, item);
    SortedSelection(listing, keep);
    Filter(SortNames(listing), keep)
  }

  // ---------------------------------------------------------------------
  // The index page's links

  /** Substrings that make the template link a name as a file. */
  const FileLinkParts := [".zip", ".md5", ".xml", ".md", ".txt"]

  predicate HasFileLinkPart(name: string) {
    exists k :: 0 <= k < |FileLinkParts| && Contains(name, FileLinkParts[k])
  }

  /** The `href` the template writes for a listed name: the name itself,
      or the name with a trailing `/` for what it takes to be a folder. */
  function Href(name: string): (href: string)
    ensures href == name <==> HasFileLinkPart(name)
    ensures href == name + "/" <==> !HasFileLinkPart(name)
  {
    if HasFileLinkPart(name) then name else name + "/"
  }

  /** Every listed entry that is not a directory is linked without a
      trailing `/`: each included part (`.md5`, `README.md`, `.xml`,
      `.zip`) contains a file-link part. */
  lemma ListedFilesLinkAsFiles(fs: FileSystem, path: Option<string>, cwd: string, listing: seq<string>, sep: char,
                               item: string)
    requires item in DirItems(fs, path, cwd, listing, sep)
    requires PathJoin(ListedDirectory(path, cwd), item, sep) !in fs.dirs
    ensures Href(item) == item
  {
    var k :| 0 <= k < |IncludedFiles| && Contains(item, IncludedFiles[k]);
    if k == 0 {
      assert OccursAt(".md5", ".md", 0);
      ContainsTransitive(item, ".md5", ".md");
      assert FileLinkParts[3] == ".md";
    } else if k == 1 {
      assert OccursAt("README.md", ".md", 6);
      ContainsTransitive(item, "README.md", ".md");
      assert FileLinkParts[3] == ".md";
    } else if k == 2 {
      assert FileLinkParts[2] == ".xml";
    } else {
      assert FileLinkParts[0] == ".zip";
    }
  }

  /** The rule reads names only: a directory whose name contains one of the
      parts, such as `docs.md`, is linked as if it were a file. */
  lemma DirectoryNamedLikeFile(dirName: string)
    requires Contains(dirName, ".md")
    ensures Href(dirName) == dirName
  {
    assert FileLinkParts[3] == ".md";
  }
}

=== FILE: manifest_format.dfy ===
/** `GeneratorXML._format_xml_lines`: turns the lines of one `addon.xml`
    into a block of the combined `addons.xml`. Lines holding an XML
    declaration are dropped, every other line is right-stripped and
    indented by two spaces, and the block ends in exactly one blank line. */
module ManifestFormat {
  import opened Text
  import opened Seqs

  const Declaration := "<?xml"

  /** `line.find('<?xml') >= 0`. */
  predicate IsDeclarationLine(line: string) {
    Contains(line, Declaration)
  }

  predicate IsContentLine(line: string) {
    !IsDeclarationLine(line)
  }

  /** One kept line as it appears in the block. */
  function Indented(line: string): string {
    "  " + RStrip(line) + "\n"
  }

  /** What the loop accumulates before the final `rstrip()`. */
  function Body(lines: seq<string>): string
    decreases |lines|
  {
    if lines == [] then []
    else
      var last := lines[|lines| - 1];
      Body(lines[..|lines| - 1]) + (if IsDeclarationLine(last) then [] else Indented(last))
  }

  /** `_format_xml_lines(lines)`. */
  function FormatXmlLines(lines: seq<string>): (block: string)
    ensures EndsWith(block, "\n\n")
    ensures |block| == 2 || !IsSpace(block[|block| - 3])
  {
    RStrip(Body(lines)) + "\n\n"
  }

  /** The source's loop, accumulating the indented lines in a string. */
  method FormatXmlLinesLoop(lines: seq<string>) returns (block: string)
    ensures block == FormatXmlLines(lines)
    ensures !Contains(block, Declaration)
  {
    var formatted := "";
    for i := 0 to |lines|
      invariant formatted == Body(lines[..i])
    {
      var line := lines[i];
      BodyStep(lines, i);
      if IsDeclarationLine(line) {
        continue;
      }
      formatted := formatted + ("  " + RStrip(line) + "\n");
    }
    assert lines[..|lines|] == lines;
    block := RStrip(formatted) + "\n\n";
    FormatAvoidsDeclaration(lines);
  }

  lemma BodyStep(lines: seq<string>, i: nat)
    requires i < |lines|
    ensures Body(lines[..i + 1])
            == Body(lines[..i]) + if IsDeclarationLine(lines[i]) then [] else Indented(lines[i])
  {
    assert lines[..i + 1][..i] == lines[..i];
  }

  // ---------------------------------------------------------------------
  // Reference definition: filter, then indent each kept line

  function IndentAll(kept: seq<string>): (r: seq<string>)
    ensures |r| == |kept|
    ensures forall k :: 0 <= k < |kept| ==> r[k] == Indented(kept[k])
  {
    seq(|kept|, k requires 0 <= k < |kept| => Indented(kept[k]))
  }

  /** The block is the right-stripped concatenation of the indented
      non-declaration lines, in their original order. */
  lemma {:induction false} BodyIsIndentedContentLines(lines: seq<string>)
    ensures Body(lines) == Concat(IndentAll(Filter(lines, IsContentLine)))
    decreases |lines|
  {
    if lines != [] {
      var init := lines[..|lines| - 1];
      var last := lines[|lines| - 1];
      assert lines == init + [last];
      BodyIsIndentedContentLines(init);
      var kept := Filter(init, IsContentLine);
      var more := Filter([last], IsContentLine);
      FilterConcat(init, [last], IsContentLine);
      IndentAllAppend(kept, more);
      ConcatAppend(IndentAll(kept), IndentAll(more));
      LastLineBlock(last);
    }
  }

  lemma IndentAllAppend(a: seq<string>, b: seq<string>)
    ensures IndentAll(a + b) == IndentAll(a) + IndentAll(b)
  {
  }

  /** What one more input line adds to the reference. */
  lemma LastLineBlock(line: string)
    ensures Concat(IndentAll(Filter([line], IsContentLine)))
            == if IsDeclarationLine(line) then [] else Indented(line)
  {
    if IsContentLine(line) {
      assert Filter([line], IsContentLine) == [line];
      assert IndentAll([line]) == [Indented(line)];
    } else {
      assert Filter([line], IsContentLine) == [];
      assert IndentAll([]) == [];
    }
  }

  lemma FormatXmlLinesReference(lines: seq<string>)
    ensures FormatXmlLines(lines) == RStrip(Concat(IndentAll(Filter(lines, IsContentLine)))) + "\n\n"
  {
    BodyIsIndentedContentLines(lines);
  }

  /** Declaration lines have no effect on the block. */
  lemma DeclarationLinesIgnored(a: seq<string>, line: string, b: seq<string>)
    requires IsDeclarationLine(line)
    ensures FormatXmlLines(a + [line] + b) == FormatXmlLines(a + b)
  {
    assert Filter(a + [line] + b, IsContentLine) == Filter(a + b, IsContentLine) by {
      FilterConcat(a + [line], b, IsContentLine);
      FilterConcat(a, [line], IsContentLine);
      FilterConcat(a, b, IsContentLine);
      assert Filter([line], IsContentLine) == [];
      assert Filter(a, IsContentLine) + [] == Filter(a, IsContentLine);
    }
    assert Body(a + [line] + b) == Body(a + b) by {
      BodyIsIndentedContentLines(a + [line] + b);
      BodyIsIndentedContentLines(a + b);
    }
  }

  // ---------------------------------------------------------------------
  // No declaration survives

  lemma IndentedAvoidsDeclaration(line: string)
    requires IsContentLine(line)
    ensures !Contains(Indented(line), Declaration)
  {
    var r := RStrip(line);
    PrefixAvoids(line, r, Declaration);
    AvoidsByAlphabet("  ", Declaration);
    ConcatAvoids("  ", r, Declaration);
    AvoidsByAlphabet("\n", Declaration);
    ConcatAvoids("  " + r, "\n", Declaration);
  }

  lemma {:induction false} BodyAvoidsDeclaration(lines: seq<string>)
    ensures !Contains(Body(lines), Declaration)
    ensures Body(lines) == [] || Body(lines)[|Body(lines)| - 1] == '\n'
    decreases |lines|
  {
    if lines != [] {
      var init := lines[..|lines| - 1];
      var last := lines[|lines| - 1];
      BodyAvoidsDeclaration(init);
      if IsContentLine(last) {
        IndentedAvoidsDeclaration(last);
        var piece := Indented(last);
        assert Body(lines) == Body(init) + piece;
        assert piece[|piece| - 1] == '\n';
        if Body(init) != [] {
          LayoutCharsOutsideDeclaration();
          assert piece[0] == ' ';
          ConcatAvoids(Body(init), piece, Declaration);
        } else {
          assert Body(lines) == piece;
        }
      } else {
        assert Body(lines) == Body(init);
      }
    }
  }

  lemma LayoutCharsOutsideDeclaration()
    ensures ' ' !in Declaration && '\n' !in Declaration
  {
  }

  /** The block never contains an XML declaration. */
  lemma FormatAvoidsDeclaration(lines: seq<string>)
    ensures !Contains(FormatXmlLines(lines), Declaration)
  {
    var body := Body(lines);
    BodyAvoidsDeclaration(lines);
    PrefixAvoids(body, RStrip(body), Declaration);
    AvoidsByAlphabet("\n\n", Declaration);
    if RStrip(body) == [] {
      assert FormatXmlLines(lines) == "\n\n";
    } else {
      ConcatAvoids(RStrip(body), "\n\n", Declaration);
    }
  }
}

=== FILE: naming.dfy ===
/** Names and paths: the archive file name of an add-on version, the
    `os.path.join` / `os.path.basename` pair the generator uses on the
    add-on folders, the add-ons root directory and the safe-exclusion
    list. Paths follow `posixpath`: `sep` is the only separator, and
    there are no drive letters. */
module Naming {
  import opened Text
  import opened Wrappers

  const ZipExtension := ".zip"

  /** `generate_zip_filename`: `<folder>-<version>.zip`. */
  function ZipFileName(folder: string, version: string): (r: string)
    ensures StartsWith(r, folder + "-")
    ensures EndsWith(r, ZipExtension)
    ensures |r| == |folder| + |version| + 5
    ensures r[|folder| + 1..|r| - 4] == version
  {
    folder + "-" + version + ZipExtension
  }

  /** `os.path.join(a, b)` for a relative `b`: a separator is inserted
      unless `a` is empty or already ends with one. */
  function PathJoin(a: string, b: string, sep: char): (r: string)
    ensures EndsWith(r, b)
    ensures a == [] ==> r == b
    ensures a != [] ==> StartsWith(r, a) && sep in r
    ensures a != [] ==> |b| + 1 <= |r| <= |a| + |b| + 1 && r[|r| - |b| - 1] == sep
    ensures a != [] && a[|a| - 1] != sep ==> r == a + [sep] + b
    ensures a != [] && a[|a| - 1] == sep ==> r == a + b
  {
    if a == [] || a[|a| - 1] == sep then a + b else a + [sep] + b
  }

  /** `os.path.basename(p)`: what follows the last separator. */
  function Basename(p: string, sep: char): string {
    var parts := Split(p, sep);
    parts[|parts| - 1]
  }

  /** The last piece of a split is what follows the last separator. */
  lemma SplitLastPiece(x: string, c: char, y: string)
    requires c !in y
    ensures var parts := Split(x + [c] + y, c); parts[|parts| - 1] == y
  {
    var ps := Split(x, c);
    JoinSplit(x, c);
    JoinAppend(ps, y, c);
    SplitJoin(ps + [y], c);
  }

  /** Joining one more piece appends the separator and the piece. */
  lemma {:induction false} JoinAppend(ps: seq<string>, y: string, c: char)
    requires |ps| >= 1
    ensures Join(ps + [y], c) == Join(ps, c) + [c] + y
    decreases |ps|
  {
    if |ps| > 1 {
      assert (ps + [y])[1..] == ps[1..] + [y];
      JoinAppend(ps[1..], y, c);
    }
  }

  /** The folder name recovered from a joined path is the listed item:
      `os.path.basename(os.path.join(main, item)) == item`. */
  lemma BasenameOfJoin(main: string, item: string, sep: char)
    requires main != [] && sep !in item
    ensures Basename(PathJoin(main, item, sep), sep) == item
  {
    var x := if main[|main| - 1] == sep then main[..|main| - 1] else main;
    assert PathJoin(main, item, sep) == x + [sep] + item by {
      if main[|main| - 1] == sep {
        assert main == x + [sep];
      }
    }
    SplitLastPiece(x, sep, item);
  }

  /** The folder under the working directory that holds the add-ons by default. */
  const Packages := "packages"

  /** `get_addons_main_path`: the configured root when it is set and
      non-empty, otherwise `os.path.join(os.getcwd(), 'packages')`. */
  function AddonsMainPath(configured: Option<string>, cwd: string, sep: char): (r: string)
    ensures r != []
    ensures configured.Some? && configured.value != [] ==> r == configured.value
    ensures (configured.None? || configured.value == []) && cwd == [] ==> r == Packages
    ensures (configured.None? || configured.value == []) && cwd != [] ==>
      StartsWith(r, cwd) && EndsWith(r, Packages)
      && |Packages| + 1 <= |r| <= |cwd| + |Packages| + 1 && r[|r| - |Packages| - 1] == sep
    ensures (configured.None? || configured.value == []) && cwd != [] && cwd[|cwd| - 1] != sep ==>
      r == cwd + [sep] + Packages
    ensures (configured.None? || configured.value == []) && cwd != [] && cwd[|cwd| - 1] == sep ==>
      r == cwd + Packages
    ensures (configured.None? || configured.value == []) && cwd != [] && sep !in Packages ==>
      Basename(r, sep) == Packages
  {
    if configured.Some? && configured.value != [] then configured.value
    else
      var r := PathJoin(cwd, Packages, sep);
      if cwd != [] && sep !in Packages then
        BasenameOfJoin(cwd, Packages, sep);
        r
      else r
  }

  /** The folders `generate_addons_file` means to skip. */
  function SafeExcludedFolders(zipFolder: string): seq<string> {
    [zipFolder, "temp", "packages"]
  }

  /** The skip test compares the full path of an add-on against bare folder
      names, so for a non-empty root it never skips anything. */
  lemma SafeExclusionNeverMatches(main: string, item: string, sep: char, zipFolder: string)
    requires main != []
    requires sep !in zipFolder && sep !in "temp" && sep !in "packages"
    ensures PathJoin(main, item, sep) !in SafeExcludedFolders(zipFolder)
  {
    var p := PathJoin(main, item, sep);
    assert sep in p;
  }
}

=== FILE: packaging.dfy ===
/** What `GeneratorZIP.generate_zip_files` writes into an add-on's archive.
    The add-on folder is walked top-down (`os.walk`); hidden and excluded
    sub-folders are pruned before the walk descends into them, and a file
    is written unless it is hidden, excluded, or (while compiled files are
    not being deleted) has a compiled-Python extension. Each file's entry
    name is its path with the add-ons root and one separator cut off, with
    the separator turned into `/` as `zipfile` does. */
module Packaging {
  import opened Text
  import opened Seqs
  import opened History

  const PythonCompiledExt := [".pyc", ".pyo", ".pyd"]

  /** An add-on folder as `os.walk` sees it: its file names and its
      sub-folders, each in listing order. */
  datatype Folder = Folder(name: string, files: seq<string>, subdirs: seq<Folder>)

  /** The per-add-on settings the walk consults. */
  datatype Exclusions = Exclusions(files: seq<string>, dirs: seq<string>, deleteCompiled: bool)

  /** A table like `ZIP_EXCLUDED_FILES`: add-on folder name to the names it excludes. */
  type ExclusionTable = map<string, seq<string>>

  /** `table.get(folder, [])`. */
  function ExcludedFor(table: ExclusionTable, folder: string): seq<string> {
    if folder in table then table[folder] else []
  }

  /** The exclusions `generate_zip_files` applies while packing one add-on:
      only the table entries under that add-on's own folder name. */
  function ExclusionsFor(fileTable: ExclusionTable, dirTable: ExclusionTable, folder: string, deleteCompiled: bool)
    : (ex: Exclusions)
    ensures ex.deleteCompiled == deleteCompiled
    ensures forall f :: f in ex.files <==> folder in fileTable && f in fileTable[folder]
    ensures forall d :: d in ex.dirs <==> folder in dirTable && d in dirTable[folder]
  {
    Exclusions(ExcludedFor(fileTable, folder), ExcludedFor(dirTable, folder), deleteCompiled)
  }

  /** A written file: the sub-folders leading to it from the add-on folder, and its name. */
  datatype Entry = Entry(dirs: seq<string>, file: string)

  // ---------------------------------------------------------------------
  // os.path.splitext

  /** Index of the last `.` in `s`, or -1. */
  function LastDot(s: string): (i: int)
    ensures -1 <= i < |s|
    ensures i >= 0 ==> s[i] == '.'
    ensures forall k :: i < k < |s| ==> s[k] != '.'
    decreases |s|
  {
    if s == [] then -1
    else if s[|s| - 1] == '.' then |s| - 1
    else LastDot(s[..|s| - 1])
  }

  /** `os.path.splitext(name)` for a name without separators: the
      extension starts at the last `.`, unless only dots precede it. */
  function SplitExt(name: string): (parts: (string, string))
    ensures parts.0 + parts.1 == name
    ensures parts.1 == [] || (parts.1[0] == '.' && forall k :: 1 <= k < |parts.1| ==> parts.1[k] != '.')
    ensures parts.1 != [] ==> exists k :: 0 <= k < |parts.0| && parts.0[k] != '.'
    ensures parts.1 == [] ==> forall k :: 0 <= k < LastDot(name) ==> name[k] == '.'
  {
    var i := LastDot(name);
    if i <= 0 then (name, [])
    else if forall k :: 0 <= k < i ==> name[k] == '.' then (name, [])
    else
      assert name == name[..i] + name[i..];
      (name[..i], name[i..])
  }

  predicate IsCompiled(name: string) {
    SplitExt(name).1 in PythonCompiledExt
  }

  // ---------------------------------------------------------------------
  // The inclusion and pruning tests

  /** A file is written unless hidden, excluded, or compiled while compiled
      files are kept on disk. */
  predicate FileIncluded(name: string, ex: Exclusions) {
    (ex.deleteCompiled || !IsCompiled(name))
    && !StartsWith(name, ".")
    && name !in ex.files
  }

  /** A sub-folder survives both rewrites of `subfolders[:]`. */
  predicate KeepSubdir(name: string, ex: Exclusions) {
    !StartsWith(name, ".") && name !in ex.dirs
  }

  predicate EntryAllowed(e: Entry, ex: Exclusions) {
    FileIncluded(e.file, ex) && forall j :: 0 <= j < |e.dirs| ==> KeepSubdir(e.dirs[j], ex)
  }

  // ---------------------------------------------------------------------
  // The walk

  /** The names of a folder's own files that pass the test, in listing order. */
  function PassingFiles(files: seq<string>, ex: Exclusions): seq<string> {
    Filter(files, (f: string) => FileIncluded(f, ex))
  }

  lemma PassingFilesStep(files: seq<string>, ex: Exclusions)
    requires files != []
    ensures FileIncluded(files[0], ex) ==> PassingFiles(files, ex) == [files[0]] + PassingFiles(files[1..], ex)
    ensures !FileIncluded(files[0], ex) ==> PassingFiles(files, ex) == PassingFiles(files[1..], ex)
  {
  }

  /** The files of one folder, as the inner loop writes them: each passing
      name once, in listing order, with no sub-folder on its path. */
  function FilesOf(files: seq<string>, ex: Exclusions): (es: seq<Entry>)
    ensures |es| == |PassingFiles(files, ex)|
    ensures forall k :: 0 <= k < |es| ==> es[k] == Entry([], PassingFiles(files, ex)[k])
    ensures forall k :: 0 <= k < |es| ==> es[k].dirs == [] && FileIncluded(es[k].file, ex) && es[k].file in files
    ensures forall f :: f in files && FileIncluded(f, ex) ==> Entry([], f) in es
    decreases |files|
  {
    if files == [] then []
    else
      var rest := FilesOf(files[1..], ex);
      assert forall f :: f in files ==> f == files[0] || f in files[1..];
      PassingFilesStep(files, ex);
      if FileIncluded(files[0], ex) then [Entry([], files[0])] + rest else rest
  }

  /** Entries of a sub-folder, seen from its parent. */
  function Under(name: string, es: seq<Entry>): (r: seq<Entry>)
    ensures |r| == |es|
    ensures forall k :: 0 <= k < |es| ==> r[k] == Entry([name] + es[k].dirs, es[k].file)
  {
    seq(|es|, k requires 0 <= k < |es| => Entry([name] + es[k].dirs, es[k].file))
  }

  /** The files written for a folder, in walk order: its own files, then
      each surviving sub-folder's in turn. */
  function Walk(f: Folder, ex: Exclusions): (es: seq<Entry>)
    ensures forall k :: 0 <= k < |es| ==> EntryAllowed(es[k], ex)
    decreases f, 1
  {
    FilesOf(f.files, ex) + WalkAll(f.subdirs, ex)
  }

  function WalkAll(subs: seq<Folder>, ex: Exclusions): (es: seq<Entry>)
    ensures forall k :: 0 <= k < |es| ==> EntryAllowed(es[k], ex)
    decreases subs, 0
  {
    if subs == [] then [] else SubdirEntries(subs[0], ex) + WalkAll(subs[1..], ex)
  }

  /** What one sub-folder contributes to its parent's walk: nothing when it
      is pruned, otherwise its own walk with its name in front. */
  function SubdirEntries(d: Folder, ex: Exclusions): (es: seq<Entry>)
    ensures forall k :: 0 <= k < |es| ==> EntryAllowed(es[k], ex)
    decreases d, 2
  {
    if KeepSubdir(d.name, ex) then
      var inner := Walk(d, ex);
      var es := Under(d.name, inner);
      assert forall k :: 0 <= k < |es| ==> EntryAllowed(es[k], ex) by {
        forall k | 0 <= k < |es|
          ensures EntryAllowed(es[k], ex)
        {
          assert EntryAllowed(inner[k], ex);
          assert es[k].dirs == [d.name] + inner[k].dirs;
        }
      }
      es
    else []
  }

  /** The sub-folders the walk descends into. */
  function KeptSubdirs(subs: seq<Folder>, ex: Exclusions): (kept: seq<Folder>)
    ensures IsSubseq(kept, subs)
    ensures forall k :: 0 <= k < |kept| ==> KeepSubdir(kept[k].name, ex)
    ensures forall d :: d in subs && KeepSubdir(d.name, ex) ==> d in kept
  {
    FilterIsSubseq(subs, (d: Folder) => KeepSubdir(d.name, ex));
    Filter(subs, (d: Folder) => KeepSubdir(d.name, ex))
  }

  /** Pruning in place is the same as walking only the kept sub-folders. */
  lemma {:induction false} PruneBeforeDescend(subs: seq<Folder>, ex: Exclusions)
    ensures WalkAll(subs, ex) == WalkAll(KeptSubdirs(subs, ex), ex)
    decreases |subs|
  {
    if subs != [] {
      var keep := (d: Folder) => KeepSubdir(d.name, ex);
      assert subs == [subs[0]] + subs[1..];
      FilterConcat([subs[0]], subs[1..], keep);
      PruneBeforeDescend(subs[1..], ex);
      var kept := KeptSubdirs(subs, ex);
      if keep(subs[0]) {
        assert Filter([subs[0]], keep) == [subs[0]];
        assert kept == [subs[0]] + KeptSubdirs(subs[1..], ex);
        assert kept[1..] == KeptSubdirs(subs[1..], ex);
      } else {
        assert Filter([subs[0]], keep) == [];
        assert kept == KeptSubdirs(subs[1..], ex);
      }
    }
  }

  /** Every file of a surviving sub-folder that the sub-folder's own walk
      writes is written for the parent too. */
  lemma {:induction false} SubdirEntryWritten(subs: seq<Folder>, i: nat, e: Entry, ex: Exclusions)
    requires i < |subs| && KeepSubdir(subs[i].name, ex) && e in Walk(subs[i], ex)
    ensures Entry([subs[i].name] + e.dirs, e.file) in WalkAll(subs, ex)
    decreases i
  {
    var first := SubdirEntries(subs[0], ex);
    assert WalkAll(subs, ex) == first + WalkAll(subs[1..], ex);
    if i == 0 {
      var inner := Walk(subs[0], ex);
      assert first == Under(subs[0].name, inner);
      var k :| 0 <= k < |inner| && inner[k] == e;
      assert first[k] == Entry([subs[0].name] + e.dirs, e.file);
    } else {
      assert subs[1..][i - 1] == subs[i];
      SubdirEntryWritten(subs[1..], i - 1, e, ex);
    }
  }

  // ---------------------------------------------------------------------
  // Entry names

  /** `absname[len(addons_main_path) + 1:]`: the path with the root and one
      separator cut off (empty when the path is not longer). */
  function ArcName(main: string, absName: string): (arc: string)
    ensures |main| + 1 <= |absName| ==> |arc| == |absName| - |main| - 1
    ensures |main| + 1 <= |absName| ==> EndsWith(absName, arc)
  {
    if |main| + 1 <= |absName| then absName[|main| + 1..] else []
  }

  /** `zipfile` stores names with `/` in place of the platform separator. */
  function ZipName(arc: string, sep: char): (name: string)
    ensures |name| == |arc|
    ensures forall k :: 0 <= k < |arc| ==> name[k] == if arc[k] == sep then '/' else arc[k]
  {
    seq(|arc|, k requires 0 <= k < |arc| => if arc[k] == sep then '/' else arc[k])
  }

  /** The absolute path of a written file: the root, the add-on folder,
      the sub-folders and the file, joined by the separator. */
  function AbsName(main: string, addon: string, e: Entry, sep: char): string {
    main + [sep] + Join([addon] + e.dirs + [e.file], sep)
  }

  /** The entry names of the add-on's archive, in the order they are
      written, under the exclusions of the add-on's own folder. */
  function ArchiveNames(main: string, addon: Folder, fileTable: ExclusionTable, dirTable: ExclusionTable,
                        deleteCompiled: bool, sep: char): (names: seq<string>)
    ensures var es := Walk(addon, ExclusionsFor(fileTable, dirTable, addon.name, deleteCompiled));
      |names| == |es|
      && forall k :: 0 <= k < |names| ==>
        names[k] == ZipName(Join([addon.name] + es[k].dirs + [es[k].file], sep), sep)
  {
    var es := Walk(addon, ExclusionsFor(fileTable, dirTable, addon.name, deleteCompiled));
    seq(|es|, k requires 0 <= k < |es| => ZipName(ArcName(main, AbsName(main, addon.name, es[k], sep)), sep))
  }

  /** Cutting the root off the absolute path leaves the path below the root. */
  lemma ArcNameOfAbsName(main: string, addon: string, e: Entry, sep: char)
    ensures ArcName(main, AbsName(main, addon, e, sep)) == Join([addon] + e.dirs + [e.file], sep)
  {
    var rest := Join([addon] + e.dirs + [e.file], sep);
    assert AbsName(main, addon, e, sep)[|main| + 1..] == rest;
  }

  /** A file with no separator in its name is stored unchanged except for `/`. */
  lemma ZipNameOfTwoParts(a: string, b: string, sep: char)
    requires sep !in a && sep !in b
    ensures ZipName(a + [sep] + b, sep) == a + "/" + b
  {
    var s := a + [sep] + b;
    var z := ZipName(s, sep);
    forall k | 0 <= k < |s|
      ensures z[k] == (a + "/" + b)[k]
    {
      if k < |a| {
        assert s[k] == a[k];
      } else if k > |a| {
        assert s[k] == b[k - |a| - 1];
      }
    }
  }

  /** The manifest of an add-on lands in its archive under
      `<folder>/addon.xml`, the entry the history lookup reads. */
  lemma ManifestArchived(main: string, addon: Folder, fileTable: ExclusionTable, dirTable: ExclusionTable,
                         deleteCompiled: bool, sep: char)
    requires "addon.xml" in addon.files && "addon.xml" !in ExcludedFor(fileTable, addon.name)
    requires sep !in addon.name && sep !in "addon.xml"
    ensures ManifestEntry(addon.name) in ArchiveNames(main, addon, fileTable, dirTable, deleteCompiled, sep)
  {
    var ex := ExclusionsFor(fileTable, dirTable, addon.name, deleteCompiled);
    var k := ManifestWalked(addon, ex);
    ManifestName(addon.name, sep);
    assert ArchiveNames(main, addon, fileTable, dirTable, deleteCompiled, sep)[k] == ManifestEntry(addon.name);
  }

  /** Nothing an add-on's own table entries name is written: no excluded
      file, and no file below an excluded sub-folder. */
  lemma ExcludedNeverArchived(addon: Folder, fileTable: ExclusionTable, dirTable: ExclusionTable, deleteCompiled: bool)
    ensures var es := Walk(addon, ExclusionsFor(fileTable, dirTable, addon.name, deleteCompiled));
      forall k :: 0 <= k < |es| ==>
        es[k].file !in ExcludedFor(fileTable, addon.name)
        && forall j :: 0 <= j < |es[k].dirs| ==> es[k].dirs[j] !in ExcludedFor(dirTable, addon.name)
  {
    var es := Walk(addon, ExclusionsFor(fileTable, dirTable, addon.name, deleteCompiled));
    assert forall k :: 0 <= k < |es| ==> EntryAllowed(es[k], ExclusionsFor(fileTable, dirTable, addon.name, deleteCompiled));
  }

  /** The table entries of other add-ons play no part in this add-on's
      archive: changing or adding one leaves its names unchanged. */
  lemma OtherAddonEntriesIgnored(main: string, addon: Folder, fileTable: ExclusionTable, dirTable: ExclusionTable,
                                 deleteCompiled: bool, sep: char, other: string, files: seq<string>, dirs: seq<string>)
    requires other != addon.name
    ensures ArchiveNames(main, addon, fileTable[other := files], dirTable[other := dirs], deleteCompiled, sep)
            == ArchiveNames(main, addon, fileTable, dirTable, deleteCompiled, sep)
  {
    assert ExcludedFor(fileTable[other := files], addon.name) == ExcludedFor(fileTable, addon.name);
    assert ExcludedFor(dirTable[other := dirs], addon.name) == ExcludedFor(dirTable, addon.name);
  }

  /** An unexcluded root `addon.xml` is among the written files. */
  lemma ManifestWalked(addon: Folder, ex: Exclusions) returns (k: nat)
    requires "addon.xml" in addon.files && "addon.xml" !in ex.files
    ensures k < |Walk(addon, ex)| && Walk(addon, ex)[k] == Entry([], "addon.xml")
  {
    AddonXmlNotCompiled();
    var own := FilesOf(addon.files, ex);
    assert Entry([], "addon.xml") in own;
    k :| 0 <= k < |own| && own[k] == Entry([], "addon.xml");
  }

  /** The stored name of the root `addon.xml`. */
  lemma ManifestName(name: string, sep: char)
    requires sep !in name && sep !in "addon.xml"
    ensures ZipName(Join([name] + [] + ["addon.xml"], sep), sep) == ManifestEntry(name)
  {
    assert [name] + [] + ["addon.xml"] == [name, "addon.xml"];
    assert Join([name, "addon.xml"], sep) == name + [sep] + "addon.xml";
    ZipNameOfTwoParts(name, "addon.xml", sep);
  }

  /** The last dot of `a.b` is the one before `b` when `b` has none. */
  lemma {:induction false} LastDotBefore(a: string, b: string)
    requires forall k :: 0 <= k < |b| ==> b[k] != '.'
    ensures LastDot(a + "." + b) == |a|
    decreases |b|
  {
    if b != [] {
      var s := a + "." + b;
      assert s[..|s| - 1] == a + "." + b[..|b| - 1];
      LastDotBefore(a, b[..|b| - 1]);
    }
  }

  lemma AddonXmlNotCompiled()
    ensures SplitExt("addon.xml").1 == ".xml"
    ensures !IsCompiled("addon.xml")
  {
    assert "addon.xml" == "addon" + "." + "xml";
    LastDotBefore("addon", "xml");
    assert "addon.xml"[0] != '.';
    assert "addon.xml"[5..] == ".xml";
  }

  /** While compiled files stay on disk, none is written; `splitext` only
      sees an extension after a non-dot character, so a hidden `.pyc` counts
      as hidden rather than compiled. */
  lemma CompiledNeverWritten(f: Folder, ex: Exclusions)
    requires !ex.deleteCompiled
    ensures forall k :: 0 <= k < |Walk(f, ex)| ==> !IsCompiled(Walk(f, ex)[k].file)
  {
  }

  lemma SplitExtExamples()
    ensures SplitExt("a.pyc") == ("a", ".pyc")
    ensures SplitExt(".pyc") == (".pyc", [])
    ensures SplitExt("a.tar.gz") == ("a.tar", ".gz")
  {
    assert "a.pyc" == "a" + "." + "pyc";
    LastDotBefore("a", "pyc");
    assert "a.pyc"[0] != '.' && "a.pyc"[..1] == "a" && "a.pyc"[1..] == ".pyc";
    assert ".pyc" == "" + "." + "pyc";
    LastDotBefore("", "pyc");
    assert "a.tar.gz" == "a.tar" + "." + "gz";
    LastDotBefore("a.tar", "gz");
    assert "a.tar.gz"[0] != '.' && "a.tar.gz"[..5] == "a.tar" && "a.tar.gz"[5..] == ".gz";
  }
}

=== FILE: seqs.dfy ===
/** Generic sequence helpers: an order-preserving filter and the
    subsequence relation it establishes. */
module Seqs {

  /** The elements of `s` that satisfy `keep`, in their original order. */
  function Filter<T>(s: seq<T>, keep: T -> bool): (r: seq<T>)
    ensures |r| <= |s|
    ensures forall k :: 0 <= k < |r| ==> keep(r[k])
    ensures forall k :: 0 <= k < |s| && keep(s[k]) ==> s[k] in r
    ensures forall x :: x in r ==> x in s
    decreases |s|
  {
    if s == [] then []
    else if keep(s[0]) then [s[0]] + Filter(s[1..], keep)
    else Filter(s[1..], keep)
  }

  /** `prefix` is a prefix of `s`. */
  predicate StartsWithSeq<T(==)>(s: seq<T>, prefix: seq<T>) {
    |prefix| <= |s| && s[..|prefix|] == prefix
  }

  /** `a` is obtained from `b` by deleting elements (order preserved). */
  predicate IsSubseq<T(==)>(a: seq<T>, b: seq<T>)
    decreases |b|
  {
    if a == [] then true
    else if b == [] then false
    else (a[0] == b[0] && IsSubseq(a[1..], b[1..])) || IsSubseq(a, b[1..])
  }

  lemma {:induction false} FilterIsSubseq<T>(s: seq<T>, keep: T -> bool)
    ensures IsSubseq(Filter(s, keep), s)
    decreases |s|
  {
    if s != [] {
      FilterIsSubseq(s[1..], keep);
    }
  }

  /** Filtering distributes over concatenation. */
  lemma {:induction false} FilterConcat<T>(a: seq<T>, b: seq<T>, keep: T -> bool)
    ensures Filter(a + b, keep) == Filter(a, keep) + Filter(b, keep)
    decreases |a|
  {
    if a == [] {
      assert a + b == b;
    } else {
      assert (a + b)[1..] == a[1..] + b;
      FilterConcat(a[1..], b, keep);
    }
  }

  /** Concatenation of a sequence of strings, in order. */
  function Concat<T>(parts: seq<seq<T>>): (r: seq<T>)
    ensures |parts| == 1 ==> r == parts[0]
    decreases |parts|
  {
    if parts == [] then [] else Concat(parts[..|parts| - 1]) + parts[|parts| - 1]
  }

  lemma {:induction false} ConcatAppend<T>(a: seq<seq<T>>, b: seq<seq<T>>)
    ensures Concat(a + b) == Concat(a) + Concat(b)
    decreases |b|
  {
    if b == [] {
      assert a + b == a;
    } else {
      assert (a + b)[..|a + b| - 1] == a + b[..|b| - 1];
      ConcatAppend(a, b[..|b| - 1]);
    }
  }

  /** `f` applied to each element, the results concatenated in order. */
  function FlatMap<T, U>(xs: seq<T>, f: T -> seq<U>): (r: seq<U>)
    decreases |xs|
  {
    if xs == [] then [] else FlatMap(xs[..|xs| - 1], f) + f(xs[|xs| - 1])
  }

  lemma {:induction false} FlatMapAppend<T, U>(xs: seq<T>, ys: seq<T>, f: T -> seq<U>)
    ensures FlatMap(xs + ys, f) == FlatMap(xs, f) + FlatMap(ys, f)
    decreases |ys|
  {
    if ys == [] {
      assert xs + ys == xs;
    } else {
      assert (xs + ys)[..|xs + ys| - 1] == xs + ys[..|ys| - 1];
      FlatMapAppend(xs, ys[..|ys| - 1], f);
    }
  }

  /** A property shared by every piece of every `f(x)` holds of the whole result. */
  lemma {:induction false} FlatMapKeeps<T, U>(xs: seq<T>, f: T -> seq<U>, p: U -> bool)
    requires forall x, y :: x in xs && y in f(x) ==> p(y)
    ensures forall y :: y in FlatMap(xs, f) ==> p(y)
    decreases |xs|
  {
    if xs != [] {
      var init := xs[..|xs| - 1];
      assert forall x :: x in init ==> x in xs;
      FlatMapKeeps(init, f, p);
      assert xs[|xs| - 1] in xs;
    }
  }

  /** A prefix of a subsequence is a subsequence. */
  lemma {:induction false} PrefixIsSubseq<T>(a: seq<T>, b: seq<T>, k: nat)
    requires IsSubseq(a, b) && k <= |a|
    ensures IsSubseq(a[..k], b)
    decreases |b|
  {
    if k > 0 && a != [] && b != [] {
      if a[0] == b[0] && IsSubseq(a[1..], b[1..]) {
        PrefixIsSubseq(a[1..], b[1..], k - 1);
        assert a[..k][1..] == a[1..][..k - 1];
      } else {
        PrefixIsSubseq(a, b[1..], k);
      }
    }
  }
}

=== FILE: text.dfy ===
/** The Python string built-ins the generator relies on, stated over
    `string` (a sequence of Unicode code points): `rstrip()`, `strip()`,
    `startswith`, `endswith`, the `in` / `find` substring test,
    `split(c)` and `splitlines()`. */
module Text {

  /** `str.isspace` for one character: the characters `str.strip()` and
      `str.rstrip()` remove when called without an argument. */
  predicate IsSpace(c: char) {
    var n := c as int;
    (0x09 <= n <= 0x0D) || (0x1C <= n <= 0x20) || n == 0x85 || n == 0xA0
    || n == 0x1680 || (0x2000 <= n <= 0x200A) || n == 0x2028 || n == 0x2029
    || n == 0x202F || n == 0x205F || n == 0x3000
  }

  /** The characters at which `str.splitlines()` breaks a line. */
  predicate IsLineBreak(c: char) {
    var n := c as int;
    (0x0A <= n <= 0x0D) || (0x1C <= n <= 0x1E) || n == 0x85 || n == 0x2028 || n == 0x2029
  }

  predicate IsDigit(c: char) {
    '0' <= c <= '9'
  }

  /** `s.startswith(prefix)`. */
  predicate StartsWith(s: string, prefix: string) {
    |prefix| <= |s| && s[..|prefix|] == prefix
  }

  predicate EndsWith(s: string, suffix: string) {
    |suffix| <= |s| && s[|s| - |suffix|..] == suffix
  }

  /** `p` occurs in `s` starting at index `i`. */
  predicate OccursAt(s: string, p: string, i: int) {
    0 <= i && i + |p| <= |s| && s[i..i + |p|] == p
  }

  /** Python's `p in s`, equivalently `s.find(p) != -1`. */
  predicate Contains(s: string, p: string) {
    exists i :: 0 <= i <= |s| && OccursAt(s, p, i)
  }

  // ---------------------------------------------------------------------
  // Stripping

  /** `s.rstrip()`: the longest prefix of `s` that does not end in white space. */
  function RStrip(s: string): (r: string)
    ensures StartsWith(s, r)
    ensures r == [] || !IsSpace(r[|r| - 1])
    ensures forall i :: |r| <= i < |s| ==> IsSpace(s[i])
    decreases |s|
  {
    if s != [] && IsSpace(s[|s| - 1]) then RStrip(s[..|s| - 1]) else s
  }

  /** `s.lstrip()`: the longest suffix of `s` that does not start with white space. */
  function LStrip(s: string): (r: string)
    ensures EndsWith(s, r)
    ensures r == [] || !IsSpace(r[0])
    ensures forall i :: 0 <= i < |s| - |r| ==> IsSpace(s[i])
    decreases |s|
  {
    if s != [] && IsSpace(s[0]) then LStrip(s[1..]) else s
  }

  /** `s.strip()`. */
  function Strip(s: string): string {
    LStrip(RStrip(s))
  }

  /** The three properties of `RStrip` determine its result: any prefix
      of `s` that ends in a non-space and leaves only spaces behind is it. */
  lemma RStripUnique(s: string, r: string)
    requires StartsWith(s, r)
    requires r == [] || !IsSpace(r[|r| - 1])
    requires forall i :: |r| <= i < |s| ==> IsSpace(s[i])
    ensures r == RStrip(s)
  {
  }

  /** A string that starts with a non-space character is left alone by `strip()`'s left half. */
  lemma StripKeepsLeadingText(s: string)
    requires s != [] && !IsSpace(s[0])
    ensures Strip(s) == RStrip(s)
  {
  }

  /** `rstrip()` never cuts into a prefix that ends in a non-space character. */
  lemma RStripKeepsPrefix(s: string, p: string)
    requires StartsWith(s, p) && p != [] && !IsSpace(p[|p| - 1])
    ensures StartsWith(RStrip(s), p)
  {
    assert s[|p| - 1] == p[|p| - 1];
  }

  // ---------------------------------------------------------------------
  // Substrings

  /** No occurrence of a non-empty `p` can straddle the junction of `x`
      and `y` when the character on one side of the junction is not in `p`. */
  lemma ConcatAvoids(x: string, y: string, p: string)
    requires |p| > 0 && !Contains(x, p) && !Contains(y, p)
    requires (x != [] && x[|x| - 1] !in p) || (y != [] && y[0] !in p)
    ensures !Contains(x + y, p)
  {
    var s := x + y;
    forall i | 0 <= i <= |s|
      ensures !OccursAt(s, p, i)
    {
      if i + |p| <= |s| {
        if i + |p| <= |x| {
          assert s[i..i + |p|] == x[i..i + |p|];
          assert !OccursAt(x, p, i);
        } else if i >= |x| {
          assert s[i..i + |p|] == y[i - |x|..i - |x| + |p|];
          assert !OccursAt(y, p, i - |x|);
        } else if x != [] && x[|x| - 1] !in p {
          var j := |x| - 1 - i;
          assert s[i..i + |p|][j] == x[|x| - 1];
        } else {
          var j := |x| - i;
          assert s[i..i + |p|][j] == y[0];
        }
      }
    }
  }

  /** A prefix of a string without `p` has no `p` either. */
  lemma PrefixAvoids(s: string, t: string, p: string)
    requires StartsWith(s, t) && !Contains(s, p)
    ensures !Contains(t, p)
  {
    forall i | 0 <= i <= |t| && OccursAt(t, p, i)
      ensures OccursAt(s, p, i)
    {
      assert s[i..i + |p|] == t[i..i + |p|];
    }
  }

  /** Containment is transitive: whatever occurs in an occurrence of `p` occurs in `s`. */
  lemma ContainsTransitive(s: string, p: string, q: string)
    requires Contains(s, p) && Contains(p, q)
    ensures Contains(s, q)
  {
    var i :| 0 <= i <= |s| && OccursAt(s, p, i);
    var j :| 0 <= j <= |p| && OccursAt(p, q, j);
    forall k | 0 <= k < |q|
      ensures s[i + j + k] == q[k]
    {
      assert s[i..i + |p|][j + k] == p[j + k];
      assert p[j..j + |q|][k] == q[k];
    }
    assert s[i + j..i + j + |q|] == q;
    assert OccursAt(s, q, i + j);
  }

  /** A string of characters all outside `p` contains no non-empty `p`. */
  lemma AvoidsByAlphabet(s: string, p: string)
    requires |p| > 0 && forall k :: 0 <= k < |s| ==> s[k] !in p
    ensures !Contains(s, p)
  {
    forall i | 0 <= i <= |s| && i + |p| <= |s|
      ensures !OccursAt(s, p, i)
    {
      assert s[i..i + |p|][0] == s[i];
    }
  }

  // ---------------------------------------------------------------------
  // split(c) and its inverse

  /** Index of the first `c` in `s`. */
  function IndexOf(s: string, c: char): (i: nat)
    requires c in s
    ensures i < |s| && s[i] == c && c !in s[..i]
  {
    if s[0] == c then 0
    else
      var j := IndexOf(s[1..], c);
      assert s[..j + 1] == [s[0]] + s[1..][..j];
      j + 1
  }

  /** `s.split(c)`: the pieces between the occurrences of `c`. */
  function Split(s: string, c: char): (parts: seq<string>)
    ensures |parts| >= 1
    ensures forall k :: 0 <= k < |parts| ==> c !in parts[k]
    ensures c in s <==> |parts| >= 2
    decreases |s|
  {
    if c !in s then [s]
    else
      var i := IndexOf(s, c);
      [s[..i]] + Split(s[i + 1..], c)
  }

  /** `c.join(parts)`. */
  function Join(parts: seq<string>, c: char): string
    requires |parts| >= 1
    decreases |parts|
  {
    if |parts| == 1 then parts[0] else parts[0] + [c] + Join(parts[1..], c)
  }

  /** Joining the pieces of a split gives back the original string. */
  lemma {:induction false} JoinSplit(s: string, c: char)
    ensures Join(Split(s, c), c) == s
    decreases |s|
  {
    if c in s {
      var i := IndexOf(s, c);
      JoinSplit(s[i + 1..], c);
      assert s == s[..i] + [c] + s[i + 1..];
    }
  }

  /** Splitting a join of `c`-free pieces gives back the pieces. */
  lemma {:induction false} SplitJoin(parts: seq<string>, c: char)
    requires |parts| >= 1
    requires forall k :: 0 <= k < |parts| ==> c !in parts[k]
    ensures Split(Join(parts, c), c) == parts
    decreases |parts|
  {
    if |parts| > 1 {
      var s := Join(parts, c);
      var rest := Join(parts[1..], c);
      assert s == parts[0] + [c] + rest;
      IndexOfJunction(parts[0], c, rest);
      assert s[..|parts[0]|] == parts[0];
      assert s[|parts[0]| + 1..] == rest;
      assert Split(s, c) == [parts[0]] + Split(rest, c);
      SplitJoin(parts[1..], c);
      assert parts == [parts[0]] + parts[1..];
    }
  }

  /** The first `c` in `a + [c] + b` is the one after `a` when `a` has none. */
  lemma IndexOfJunction(a: string, c: char, b: string)
    requires c !in a
    ensures c in a + [c] + b && IndexOf(a + [c] + b, c) == |a|
  {
    var s := a + [c] + b;
    assert s[|a|] == c;
    var i := IndexOf(s, c);
    assert s[..|a|] == a;
  }

  /** A join of two or more pieces contains the separator. */
  lemma JoinHasSeparator(parts: seq<string>, c: char)
    requires |parts| >= 2
    ensures c in Join(parts, c)
  {
    assert Join(parts, c)[|parts[0]|] == c;
  }

  // ---------------------------------------------------------------------
  // splitlines()

  /** Index of the first line break in `s`, or `|s|` when there is none. */
  function FirstBreak(s: string): (i: nat)
    ensures i <= |s|
    ensures i < |s| ==> IsLineBreak(s[i])
    ensures forall k :: 0 <= k < i ==> !IsLineBreak(s[k])
    decreases |s|
  {
    if s == [] then 0
    else if IsLineBreak(s[0]) then 0
    else 1 + FirstBreak(s[1..])
  }

  /** `s.splitlines()`: the lines of `s` without their line endings; `\r\n`
      ends one line, and a final line ending does not open an empty line. */
  function SplitLines(s: string): (lines: seq<string>)
    ensures forall k, j :: 0 <= k < |lines| && 0 <= j < |lines[k]| ==> !IsLineBreak(lines[k][j])
    ensures s == [] <==> lines == []
    decreases |s|
  {
    if s == [] then []
    else
      var i := FirstBreak(s);
      if i == |s| then [s]
      else
        var next := if s[i] == '\r' && i + 1 < |s| && s[i + 1] == '\n' then i + 2 else i + 1;
        [s[..i]] + SplitLines(s[next..])
  }

  /** Splitting a `\n`-join of break-free lines, the last one non-empty,
      gives back the lines. */
  lemma {:induction false} SplitLinesJoin(lines: seq<string>)
    requires |lines| >= 1 && lines[|lines| - 1] != []
    requires forall k, j :: 0 <= k < |lines| && 0 <= j < |lines[k]| ==> !IsLineBreak(lines[k][j])
    ensures SplitLines(Join(lines, '\n')) == lines
    decreases |lines|
  {
    var s := Join(lines, '\n');
    if |lines| == 1 {
      assert FirstBreak(s) == |s|;
    } else {
      var rest := Join(lines[1..], '\n');
      assert s == lines[0] + ['\n'] + rest;
      FirstBreakJunction(lines[0], '\n', rest);
      var i := FirstBreak(s);
      assert s[..i] == lines[0];
      assert s[i + 1..] == rest;
      assert lines[1..][|lines[1..]| - 1] == lines[|lines| - 1];
      SplitLinesJoin(lines[1..]);
    }
  }

  /** The first line break of `a + [c] + b` is `c` when `a` has none. */
  lemma FirstBreakJunction(a: string, c: char, b: string)
    requires IsLineBreak(c)
    requires forall j :: 0 <= j < |a| ==> !IsLineBreak(a[j])
    ensures FirstBreak(a + [c] + b) == |a|
  {
    var s := a + [c] + b;
    assert s[|a|] == c;
    assert forall j :: 0 <= j < |a| ==> s[j] == a[j];
  }

  // ---------------------------------------------------------------------
  // Slices

  /** Python's `s[0:-k]` for `k > 0`: drop the last `k` characters, or
      everything when `s` is shorter. */
  function DropLast(s: string, k: nat): (r: string)
    ensures |s| >= k ==> |r| == |s| - k
    ensures |s| < k ==> r == []
    ensures StartsWith(s, r)
  {
    if |s| >= k then s[..|s| - k] else []
  }
}

=== FILE: version_scan.dfy ===
/** Reading an add-on's version out of its `addon.xml`: the source runs
    `re.findall(r'version=\"(.*?[0-9])\"', text)` and takes the match at
    index 1, skipping the `version` of the XML declaration. The scanner here
    is that regular expression spelled out: after `version="` it takes the
    shortest run of non-newline characters ending in an ASCII digit that
    is followed by `"`; the next search starts after that quote, and a
    position where no match starts is passed over by one character. */
module VersionScan {
  import opened Text
  import opened Wrappers

  const Attribute := "version=\""

  /** Position `e` holds a digit directly followed by the closing quote. */
  predicate ClosesAt(s: string, e: int) {
    0 <= e && e + 1 < |s| && IsDigit(s[e]) && s[e + 1] == '"'
  }

  /** A captured value: non-empty, ending in a digit, within one line. */
  predicate IsVersionValue(v: string) {
    v != [] && IsDigit(v[|v| - 1]) && '\n' !in v
  }

  /** The lazy `.*?[0-9]"` part from position `j`: the first closing
      position, provided no newline comes before it. */
  function ValueEnd(s: string, j: nat): (r: Option<nat>)
    ensures r.Some? ==> j <= r.value && ClosesAt(s, r.value) && '\n' !in s[j..r.value]
    ensures r.Some? ==> forall e :: j <= e < r.value ==> !ClosesAt(s, e)
    ensures r.None? ==> forall e :: j <= e && ClosesAt(s, e) ==> '\n' in s[j..e]
    decreases |s| - j
  {
    if j + 1 >= |s| then None
    else if ClosesAt(s, j) then Some(j)
    else if s[j] == '\n' then None
    else
      var r := ValueEnd(s, j + 1);
      assert forall e :: j + 1 <= e < |s| ==> s[j..e] == [s[j]] + s[j + 1..e];
      r
  }

  /** All matches of the pattern from position `p` on, in text order. */
  function FindVersions(s: string, p: nat): (vs: seq<string>)
    ensures forall k :: 0 <= k < |vs| ==> IsVersionValue(vs[k])
    ensures forall k :: 0 <= k < |vs| ==> Contains(s, Attribute + vs[k] + "\"")
    decreases |s| - p
  {
    if p >= |s| then []
    else if OccursAt(s, Attribute, p) then
      match ValueEnd(s, p + |Attribute|)
      case Some(e) =>
        MatchFound(s, p, e);
        [s[p + |Attribute|..e + 1]] + FindVersions(s, e + 2)
      case None => FindVersions(s, p + 1)
    else FindVersions(s, p + 1)
  }

  /** What one match captures: a version value, present in the text as an attribute. */
  lemma MatchFound(s: string, p: nat, e: nat)
    requires OccursAt(s, Attribute, p) && ValueEnd(s, p + |Attribute|) == Some(e)
    ensures p + |Attribute| <= e + 1 <= |s|
    ensures IsVersionValue(s[p + |Attribute|..e + 1])
    ensures Contains(s, Attribute + s[p + |Attribute|..e + 1] + "\"")
  {
    var v := s[p + |Attribute|..e + 1];
    assert s[p..e + 2] == s[p..p + |Attribute|] + v + s[e + 1..e + 2];
    assert OccursAt(s, Attribute + v + "\"", p);
    assert v[..|v| - 1] == s[p + |Attribute|..e];
  }

  /** `re.findall(...)[1]`; `None` where the source raises `IndexError`. */
  function VersionPick(text: string): (r: Option<string>)
    ensures r.Some? <==> |FindVersions(text, 0)| >= 2
    ensures r.Some? ==> IsVersionValue(r.value) && Contains(text, Attribute + r.value + "\"")
  {
    var matches := FindVersions(text, 0);
    if |matches| >= 2 then Some(matches[1]) else None
  }

  // ---------------------------------------------------------------------
  // How the scan moves through a text

  predicate NoAttributeBefore(t: string, n: int) {
    forall i :: 0 <= i < n ==> !OccursAt(t, Attribute, i)
  }

  /** Positions where no attribute starts are skipped. */
  lemma {:induction false} SkipToAttribute(s: string, q: nat, p: nat)
    requires q <= p
    requires forall i :: q <= i < p ==> !OccursAt(s, Attribute, i)
    ensures FindVersions(s, q) == FindVersions(s, p)
    decreases p - q
  {
    if q < p && q < |s| {
      SkipToAttribute(s, q + 1, p);
    }
  }

  /** The value closes at the first digit-quote pair when no newline precedes it. */
  lemma ValueEndAt(s: string, j: nat, e: nat)
    requires j <= e && ClosesAt(s, e) && '\n' !in s[j..e]
    requires forall k :: j <= k < e ==> !ClosesAt(s, k)
    ensures ValueEnd(s, j) == Some(e)
  {
  }

  /** Matching against a window of the text equals matching against the window alone. */
  lemma OccursInWindow(s: string, off: nat, t: string, i: nat)
    requires off + |t| <= |s| && s[off..off + |t|] == t
    requires i + |Attribute| <= |t|
    ensures OccursAt(s, Attribute, off + i) == OccursAt(t, Attribute, i)
  {
    assert forall m :: 0 <= m < |t| ==> s[off + m] == t[m];
    assert s[off + i..off + i + |Attribute|] == t[i..i + |Attribute|];
  }

  /** One match: when the first attribute from `q` on starts at `p` and
      holds a well-formed value `v`, the scan yields `v` and resumes after
      its closing quote. */
  lemma MatchAfterSkip(s: string, q: nat, p: nat, v: string)
    requires q <= p
    requires forall i :: q <= i < p ==> !OccursAt(s, Attribute, i)
    requires ValueAt(s, p, v) && IsVersionValue(v) && '"' !in v
    ensures FindVersions(s, q) == [v] + FindVersions(s, p + |Attribute| + |v| + 1)
  {
    var j := p + |Attribute|;
    var e := j + |v| - 1;
    SkipToAttribute(s, q, p);
    forall k | j <= k < e
      ensures !ClosesAt(s, k)
    {
      assert s[k + 1] == v[k + 1 - j];
    }
    assert s[j..e] == v[..|v| - 1];
    assert s[e] == v[|v| - 1];
    ValueEndAt(s, j, e);
    MatchAt(s, p, e);
  }

  /** A match at `p` ending at `e`: the scan yields the value and resumes after the quote. */
  lemma MatchAt(s: string, p: nat, e: nat)
    requires OccursAt(s, Attribute, p) && ValueEnd(s, p + |Attribute|) == Some(e)
    ensures FindVersions(s, p) == [s[p + |Attribute|..e + 1]] + FindVersions(s, e + 2)
  {
  }

  /** The version picked is the value of the SECOND `version="…"` attribute
      of the text: in a manifest the first belongs to the XML declaration
      and the second to the `<addon>` element. */
  lemma PickSecondAttribute(decl: string, v0: string, mid: string, v: string, rest: string)
    requires NoAttributeBefore(decl + Attribute, |decl|)
    requires IsVersionValue(v0) && '"' !in v0
    requires NoAttributeBefore(mid + Attribute, |mid|)
    requires IsVersionValue(v) && '"' !in v
    ensures VersionPick(decl + Attribute + v0 + "\"" + mid + Attribute + v + "\"" + rest) == Some(v)
  {
    var x := decl + Attribute + v0 + "\"";
    var y := mid + Attribute + v + "\"" + rest;
    var s := x + mid + Attribute + v + "\"" + rest;
    assert s == x + y;
    DeclarationPart(decl, v0, y);
    LaterPart(x, mid, v, rest);
    PickSecondAt(s, |decl|, v0, |x| + |mid|, v);
  }

  /** A text whose only attribute is the declaration's has no second
      match: the source's `[1]` raises there. */
  lemma PickFailsWithOneAttribute(decl: string, v0: string, rest: string)
    requires NoAttributeBefore(decl + Attribute, |decl|)
    requires IsVersionValue(v0) && '"' !in v0
    requires !Contains(rest, Attribute)
    ensures VersionPick(decl + Attribute + v0 + "\"" + rest).None?
  {
    var x := decl + Attribute + v0 + "\"";
    var s := x + rest;
    DeclarationPart(decl, v0, rest);
    MatchAfterSkip(s, 0, |decl|, v0);
    NoAttributeInTail(x, rest);
    SkipToAttribute(s, |x|, |s|);
  }

  /** The layout of the declaration's attribute at the start of a text. */
  lemma DeclarationPart(decl: string, v0: string, y: string)
    requires NoAttributeBefore(decl + Attribute, |decl|)
    ensures forall i :: 0 <= i < |decl| ==> !OccursAt(decl + Attribute + v0 + "\"" + y, Attribute, i)
    ensures ValueAt(decl + Attribute + v0 + "\"" + y, |decl|, v0)
  {
    var s := decl + Attribute + v0 + "\"" + y;
    assert s == [] + (decl + Attribute) + (v0 + "\"" + y);
    NoAttributeInPiece([], decl + Attribute, v0 + "\"" + y, |decl|);
    ValuePiece(decl, v0, y);
  }

  /** The layout of a later attribute, after a prefix `x`. */
  lemma LaterPart(x: string, mid: string, v: string, rest: string)
    requires NoAttributeBefore(mid + Attribute, |mid|)
    ensures forall i :: |x| <= i < |x| + |mid| ==> !OccursAt(x + mid + Attribute + v + "\"" + rest, Attribute, i)
    ensures ValueAt(x + mid + Attribute + v + "\"" + rest, |x| + |mid|, v)
  {
    var s := x + mid + Attribute + v + "\"" + rest;
    assert s == x + (mid + Attribute) + (v + "\"" + rest);
    NoAttributeInPiece(x, mid + Attribute, v + "\"" + rest, |mid|);
    ValuePiece(x + mid, v, rest);
  }

  /** No attribute starts inside a tail that holds none. */
  lemma NoAttributeInTail(x: string, rest: string)
    requires !Contains(rest, Attribute)
    ensures forall i :: |x| <= i < |x + rest| ==> !OccursAt(x + rest, Attribute, i)
  {
    var s := x + rest;
    forall i | |x| <= i < |s|
      ensures !OccursAt(s, Attribute, i)
    {
      if i + |Attribute| <= |s| {
        assert s[|x|..|x| + |rest|] == rest;
        OccursInWindow(s, |x|, rest, i - |x|);
      }
    }
  }

  /** `version="v"` starts at `p` of `s`. */
  predicate ValueAt(s: string, p: nat, v: string) {
    var j := p + |Attribute|;
    OccursAt(s, Attribute, p) && j + |v| < |s| && s[j..j + |v|] == v && s[j + |v|] == '"'
  }

  /** `PickSecondAttribute` stated by positions in the text. */
  lemma PickSecondAt(s: string, p1: nat, v0: string, p2: nat, v: string)
    requires forall i :: 0 <= i < p1 ==> !OccursAt(s, Attribute, i)
    requires ValueAt(s, p1, v0) && IsVersionValue(v0) && '"' !in v0
    requires p1 + |Attribute| + |v0| + 1 <= p2
    requires forall i :: p1 + |Attribute| + |v0| + 1 <= i < p2 ==> !OccursAt(s, Attribute, i)
    requires ValueAt(s, p2, v) && IsVersionValue(v) && '"' !in v
    ensures VersionPick(s) == Some(v)
  {
    MatchAfterSkip(s, 0, p1, v0);
    MatchAfterSkip(s, p1 + |Attribute| + |v0| + 1, p2, v);
  }

  /** A piece of the text without an attribute start keeps that property inside the text. */
  lemma NoAttributeInPiece(pre: string, t: string, post: string, n: nat)
    requires n + |Attribute| <= |t| && NoAttributeBefore(t, n)
    ensures forall i :: |pre| <= i < |pre| + n ==> !OccursAt(pre + t + post, Attribute, i)
  {
    var s := pre + t + post;
    forall i | |pre| <= i < |pre| + n
      ensures !OccursAt(s, Attribute, i)
    {
      Window(pre, t, post);
      OccursInWindow(s, |pre|, t, i - |pre|);
    }
  }

  /** The layout of one `version="v"` piece of a text. */
  lemma ValuePiece(pre: string, v: string, post: string)
    ensures ValueAt(pre + Attribute + v + "\"" + post, |pre|, v)
  {
    Window(pre, Attribute, v + "\"" + post);
    Window(pre + Attribute, v, "\"" + post);
    assert pre + Attribute + v + "\"" + post == pre + Attribute + (v + "\"" + post);
    assert pre + Attribute + v + "\"" + post == pre + Attribute + v + ("\"" + post);
  }

  lemma Window(x: string, w: string, y: string)
    ensures (x + w + y)[|x|..|x| + |w|] == w
  {
  }
}

=== FILE: versions.dfy ===
/** `GeneratorZIP._file_compare_version`: orders two archive file names by
    the version embedded in them. The version is the piece between the
    FIRST and the second `-` with its last four characters (`.zip`)
    dropped, read as a list of integers separated by `.`, and two lists
    compare as Python lists do. */
module Versions {
  import opened Text
  import Naming

  // ---------------------------------------------------------------------
  // Reading the version out of a file name

  predicate Dashed(name: string) {
    '-' in name
  }

  /** `name.split('-')[1][0:-4]`. */
  function VersionText(name: string): string
    requires Dashed(name)
  {
    DropLast(Split(name, '-')[1], 4)
  }

  /** A piece `int()` accepts in the archive names the generator writes:
      a non-empty run of ASCII digits. */
  predicate IsNumeral(s: string) {
    s != [] && forall k :: 0 <= k < |s| ==> IsDigit(s[k])
  }

  function NumeralValue(s: string): nat
    requires forall k :: 0 <= k < |s| ==> IsDigit(s[k])
    decreases |s|
  {
    if s == [] then 0
    else
      assert IsDigit(s[|s| - 1]);
      10 * NumeralValue(s[..|s| - 1]) + (s[|s| - 1] as int - '0' as int)
  }

  predicate IsNumericVersion(v: string) {
    var parts := Split(v, '.');
    forall k :: 0 <= k < |parts| ==> IsNumeral(parts[k])
  }

  /** `list(map(int, v.split('.')))`. */
  function ParseVersion(v: string): seq<nat>
    requires IsNumericVersion(v)
  {
    var parts := Split(v, '.');
    seq(|parts|, k requires 0 <= k < |parts| => NumeralValue(parts[k]))
  }

  // ---------------------------------------------------------------------
  // Python list comparison

  /** `a < b` on Python lists: the first differing element decides, and a
      proper prefix is smaller. */
  predicate LexLess(a: seq<int>, b: seq<int>)
    decreases |a|
  {
    if a == [] then b != []
    else if b == [] then false
    else if a[0] != b[0] then a[0] < b[0]
    else LexLess(a[1..], b[1..])
  }

  lemma {:induction false} LexLessIrreflexive(a: seq<int>)
    ensures !LexLess(a, a)
    decreases |a|
  {
    if a != [] {
      LexLessIrreflexive(a[1..]);
    }
  }

  /** On distinct lists exactly one direction of `<` holds. */
  lemma {:induction false} LexLessTrichotomy(a: seq<int>, b: seq<int>)
    requires a != b
    ensures LexLess(a, b) != LexLess(b, a)
    decreases |a|
  {
    if a != [] && b != [] && a[0] == b[0] {
      assert a == [a[0]] + a[1..] && b == [b[0]] + b[1..];
      LexLessTrichotomy(a[1..], b[1..]);
    }
  }

  // ---------------------------------------------------------------------
  // The comparator

  /** The names are ones the comparator can read without `int()` raising. */
  predicate Comparable(a: string, b: string) {
    Dashed(a) && Dashed(b) ==> IsNumericVersion(VersionText(a)) && IsNumericVersion(VersionText(b))
  }

  function Version(name: string): seq<nat>
    requires Dashed(name) && IsNumericVersion(VersionText(name))
  {
    ParseVersion(VersionText(name))
  }

  /** `_file_compare_version(a, b)`. */
  function Compare(a: string, b: string): (r: int)
    requires Comparable(a, b)
    ensures r == 0 <==> !(Dashed(a) && Dashed(b))
    ensures r == -1 <==> Dashed(a) && Dashed(b) && LexLess(Version(a), Version(b))
    ensures r == 1 <==> Dashed(a) && Dashed(b) && !LexLess(Version(a), Version(b))
  {
    if Dashed(a) && Dashed(b) then
      if LexLess(Version(a), Version(b)) then -1 else 1
    else 0
  }

  /** For names with different versions, swapping the arguments flips the answer. */
  lemma CompareAntisymmetric(a: string, b: string)
    requires Dashed(a) && Dashed(b) && Comparable(a, b)
    requires Version(a) != Version(b)
    ensures Compare(a, b) == -Compare(b, a)
  {
    LexLessTrichotomy(Version(a), Version(b));
  }

  /** For names with equal versions, both directions answer 1, so the
      comparator is not a consistent ordering. */
  lemma CompareEqualVersions(a: string, b: string)
    requires Dashed(a) && Dashed(b) && Comparable(a, b)
    requires Version(a) == Version(b)
    ensures Compare(a, b) == 1 && Compare(b, a) == 1
  {
    LexLessIrreflexive(Version(a));
  }

  /** In particular a dashed name never compares equal to itself. */
  lemma CompareSelf(a: string)
    requires Dashed(a) && Comparable(a, a)
    ensures Compare(a, a) == 1
  {
    LexLessIrreflexive(Version(a));
  }

  // ---------------------------------------------------------------------
  // Agreement with the archive naming

  /** The comparator reads back the version `ZipFileName` wrote, as long as
      neither the folder nor the version contains `-`. */
  lemma ZipNameVersionRoundTrip(folder: string, version: string)
    requires '-' !in folder && '-' !in version
    ensures Dashed(Naming.ZipFileName(folder, version))
    ensures VersionText(Naming.ZipFileName(folder, version)) == version
  {
    var name := Naming.ZipFileName(folder, version);
    var tail := version + ".zip";
    assert name == Join([folder, tail], '-');
    assert '-' !in tail;
    SplitJoin([folder, tail], '-');
    assert DropLast(tail, 4) == version;
  }

  /** A folder name containing `-` shifts the pieces: for a folder
      `<f1>-<f2>` the comparator reads `f2` without its last four
      characters, not the version. */
  lemma DashedFolderMisreadsVersion(f1: string, f2: string, version: string)
    requires '-' !in f1 && '-' !in f2 && '-' !in version
    ensures Dashed(Naming.ZipFileName(f1 + "-" + f2, version))
    ensures VersionText(Naming.ZipFileName(f1 + "-" + f2, version)) == DropLast(f2, 4)
  {
    var name := Naming.ZipFileName(f1 + "-" + f2, version);
    var tail := version + ".zip";
    assert '-' !in tail;
    assert [f1, f2, tail][1..] == [f2, tail] && [f2, tail][1..] == [tail];
    assert Join([f2, tail], '-') == f2 + ['-'] + tail;
    assert Join([f1, f2, tail], '-') == f1 + ['-'] + (f2 + ['-'] + tail);
    assert name == Join([f1, f2, tail], '-');
    SplitJoin([f1, f2, tail], '-');
  }

  /** When what the comparator misreads is a digit run (folder `repo-12345`
      reads `1`), every archive of that add-on carries the same reading,
      whatever its real version, and each answers 1 against every other. */
  lemma DashedFolderArchivesTie(f1: string, f2: string, v1: string, v2: string)
    requires '-' !in f1 && '-' !in f2 && '-' !in v1 && '-' !in v2
    requires IsNumericVersion(DropLast(f2, 4))
    ensures var a := Naming.ZipFileName(f1 + "-" + f2, v1);
      var b := Naming.ZipFileName(f1 + "-" + f2, v2);
      Dashed(a) && Dashed(b) && VersionText(a) == VersionText(b) == DropLast(f2, 4)
      && Compare(a, b) == 1 && Compare(b, a) == 1
  {
    var a := Naming.ZipFileName(f1 + "-" + f2, v1);
    var b := Naming.ZipFileName(f1 + "-" + f2, v2);
    DashedFolderMisreadsVersion(f1, f2, v1);
    DashedFolderMisreadsVersion(f1, f2, v2);
    SameReadingTies(a, b);
  }

  /** Two names the comparator reads the same numeric version from tie. */
  lemma SameReadingTies(a: string, b: string)
    requires Dashed(a) && Dashed(b) && VersionText(a) == VersionText(b)
    requires IsNumericVersion(VersionText(a))
    ensures Compare(a, b) == 1 && Compare(b, a) == 1
  {
    CompareEqualVersions(a, b);
  }

  /** For `my-addon` the comparator reads `a`, which `int()` rejects. */
  lemma MisreadExample()
    ensures VersionText(Naming.ZipFileName("my-addon", "1.0")) == "a"
    ensures !IsNumericVersion("a")
  {
    assert "my-addon" == "my" + "-" + "addon";
    DashedFolderMisreadsVersion("my", "addon", "1.0");
    assert DropLast("addon", 4) == "a";
    var parts := Split("a", '.');
    assert parts == ["a"];
    assert !IsDigit(parts[0][0]);
  }

  /** Archives the generator names are ordered by their numeric versions. */
  lemma CompareZipNames(f1: string, v1: string, f2: string, v2: string)
    requires '-' !in f1 && '-' !in v1 && '-' !in f2 && '-' !in v2
    requires IsNumericVersion(v1) && IsNumericVersion(v2)
    ensures Comparable(Naming.ZipFileName(f1, v1), Naming.ZipFileName(f2, v2))
    ensures Compare(Naming.ZipFileName(f1, v1), Naming.ZipFileName(f2, v2)) == -1
            <==> LexLess(ParseVersion(v1), ParseVersion(v2))
    ensures Compare(Naming.ZipFileName(f1, v1), Naming.ZipFileName(f2, v2)) == 1
            <==> !LexLess(ParseVersion(v1), ParseVersion(v2))
  {
    ZipNameVersionRoundTrip(f1, v1);
    ZipNameVersionRoundTrip(f2, v2);
  }

  /** Versions compare numerically per component, not as text: `1.9.0`
      ranks below `1.10.0` (and, by `CompareZipNames`, so do their archives). */
  lemma CompareNumericExample()
    ensures IsNumericVersion("1.9.0") && IsNumericVersion("1.10.0")
    ensures LexLess(ParseVersion("1.9.0"), ParseVersion("1.10.0"))
  {
    Parsed190();
    Parsed1100();
  }

  /** A larger earlier component outweighs a longer later one: `1.2.33`
      ranks below `1.10.0`. */
  lemma CompareComponentExample()
    ensures IsNumericVersion("1.2.33") && IsNumericVersion("1.10.0")
    ensures LexLess(ParseVersion("1.2.33"), ParseVersion("1.10.0"))
  {
    Parsed1233();
    Parsed1100();
  }

  lemma Parsed190()
    ensures IsNumericVersion("1.9.0") && ParseVersion("1.9.0") == [1, 9, 0]
  {
    ParsedExample("1.9.0", ["1", "9", "0"], [1, 9, 0]);
  }

  lemma Parsed1100()
    ensures IsNumericVersion("1.10.0") && ParseVersion("1.10.0") == [1, 10, 0]
  {
    ParsedExample("1.10.0", ["1", "10", "0"], [1, 10, 0]);
  }

  lemma Parsed1233()
    ensures IsNumericVersion("1.2.33") && ParseVersion("1.2.33") == [1, 2, 33]
  {
    ParsedExample("1.2.33", ["1", "2", "33"], [1, 2, 33]);
  }

  /** Helper for the examples: the parsed value of a concrete version. */
  lemma ParsedExample(v: string, parts: seq<string>, values: seq<nat>)
    requires |parts| >= 1 && v == Join(parts, '.')
    requires forall k :: 0 <= k < |parts| ==> '.' !in parts[k]
    requires |values| == |parts|
    requires forall k :: 0 <= k < |parts| ==> IsNumeral(parts[k]) && NumeralValue(parts[k]) == values[k]
    ensures IsNumericVersion(v) && ParseVersion(v) == values
  {
    SplitJoin(parts, '.');
  }
}

=== FILE: wrappers.dfy ===
/** Failure-compatible wrappers used for the error paths of the generator:
    `Option` for a value that may be absent (an unreadable file, a missing
    regex match) and `Result` for an operation that fails with a reason. */
module Wrappers {

  datatype Option<+T> = None | Some(value: T)

  datatype Result<+R, +E> = Success(value: R) | Failure(error: E)
}
